=== FILE: README.md ===
# draftr: the Markdown to plain-text pipeline, in Dafny

draftr converts an Internet-Draft written in kramdown-style Markdown into the
fixed-width plain-text layout of an RFC. This project models the pure core of
that pipeline (`draftr.js`):

- **Layout primitives** (`layout.dfy`): `blank`, `insertLeftAligned`,
  `insertRightAligned`, `insertCentered`, and `wrapText`, the greedy word
  wrapper with a hanging indent.
- **The block lexer of `fromMD`** (`markdown.dfy`).
  - The first line is the divider. Lines that start with it open top-level
    sections.
  - The metadata section, the abstract section and the middle section are
    extracted.
  - The middle section's runs of non-blank lines are classified as ATX
    headings, Setext headings or text paragraphs.
- **The renderer of `toTXT`** (`render.dfy`).
  - The front matter, built from a left and a right column. In the right
    column, an organisation is listed once for adjacent authors that share it.
  - The abstract group.
  - The boilerplate selection.
  - Hierarchical section numbering, with the number written over the wrapped
    heading's padding.
  - The running page header.
  - The footer, with its author short name.
- **The pagination loop of `toTXT` with `breakBlock`** (`paginate.dfy`).
  - Greedy, group-atomic packing of rendered groups onto pages of 54 rows.
  - Each page is closed by a break block: filler lines, the numbered footer, a
    form feed and the next page's header.
  - The loop is a function over the groups with the row count as a parameter.
  - `PaginateLoop` carries out the same loop with a running page number and
    row count.
- **The entry points** (`draftr.dfy`): `fromMD`, `toTXT` with the final
  serialisation, and the four conversions that are not implemented.

The JavaScript built-ins the code relies on live in `strings.dfy`:

- `split` and `join`;
- `indexOf` with a start position;
- `substr` and `substring`, with their clamping of out-of-range arguments;
- the `\s` class;
- the regular-expression replacements the code uses;
- decimal printing of numbers.

The model's choices:

- Strings are sequences of characters.
- Section counters are a `seq<nat>` of length 6.
- Blocks are the datatype `Section(level, title) | Text(content)`.
- The metadata parser is a function parameter of `FromMD`.
- Already-formatted date texts are a `Dates` record.
- The boilerplate paragraphs and the table-of-contents placeholder are a
  `Literals` record.

## Model

| member | source | states |
|---|---|---|
| Strings.SplitOn | draftr.js:46 | `split` on one character gives at least one piece, and no piece contains the separator |
| Strings.JoinSplitOn | draftr.js:46 | joining the pieces of a split with the separator gives back the original text |
| Strings.SplitOnJoin | draftr.js:46 | splitting a join of separator-free lines gives back exactly those lines |
| Strings.JoinEndsWithLast | draftr.js:419 | a joined list of lines ends with its last line |
| Strings.SkipWhitespace | draftr.js:145 | the rest of a string after a maximal leading run of `\s` characters |
| Strings.WhitespaceEndAt | draftr.js:363 | a whitespace stretch that runs up to a non-whitespace character or the end is the maximal run found by the `\s+` match |
| Strings.SplitWhitespace | draftr.js:145 | `split(/\s+/)` gives one piece more than there are maximal whitespace runs, no piece contains whitespace, and the pieces put together are the input without its whitespace |
| Strings.CollapseWhitespace | draftr.js:102 | `replace(/\s+/g, " ")`: whitespace in the result is only single spaces, never two in a row, the result starts with a space exactly when the input starts with whitespace, and its other characters are the input's, in order |
| Strings.CollapseIsJoinedTokens | draftr.js:101-102 | collapsing whitespace equals joining the `\s+`-separated tokens with single spaces |
| Strings.CollapseNormalText | draftr.js:102 | text whose whitespace is already single spaces, never two in a row, is left unchanged by the collapse |
| Strings.SplitAfterRun | draftr.js:145 | a maximal whitespace run at the start gives an empty first piece, followed by the pieces of the rest |
| Strings.SplitAfterWord | draftr.js:145 | a whitespace-free word, a maximal whitespace run and a rest split into the word followed by the pieces of the rest |
| Layout.SplitSingleWord | draftr.js:145 | a word without whitespace splits into itself |
| Strings.CollapseAfterRun | draftr.js:102 | a maximal whitespace run at the start collapses to one space before the collapsed rest |
| Strings.CollapseAfterWord | draftr.js:102 | a whitespace-free word, a maximal whitespace run and a rest collapse to the word, one space and the collapsed rest |
| Strings.CollapseSingleWord | draftr.js:102 | a word without whitespace is unchanged by the collapse |
| Strings.TrimLeadingSpaces | draftr.js:66 | `replace(/^[ ]*/, "")`: the result is a suffix of the input, only spaces were dropped, and it does not start with a space |
| Strings.TrimTrailingSpaces | draftr.js:67 | `replace(/[ ]*$/, "")`: the result is a prefix of the input, only spaces were dropped, and it does not end with a space |
| Strings.TrimLeadingKeepsText | draftr.js:66 | removing the leading spaces keeps every character that is not a space, in order |
| Strings.TrimTrailingKeepsText | draftr.js:67 | removing the trailing spaces keeps every character that is not a space, in order |
| Strings.IndexOf | draftr.js:50 | `indexOf(sub, position)` is -1 or an occurrence at or after the clamped start, with no earlier occurrence from that start |
| Strings.Substring | draftr.js:341 | `substring(start)` with an in-range start is the suffix from that start |
| Strings.NatToString | draftr.js:339 | a number prints as a non-empty string of digits without dots or spaces, with a leading '0' exactly when the number is 0, so the numeral is canonical |
| Strings.NumeralRoundTrip | draftr.js:339 | every canonical numeral (digits, no leading zero unless it is "0") is the printed form of the number it reads as |
| Strings.ParseNatToString | draftr.js:339 | reading a printed number back gives the number |
| Layout.Blank | draftr.js:134-138 | exactly max(width, 0) spaces |
| Layout.InsertLeftAligned | draftr.js:170-172 | when src fits: same length as dst, src at offset 0 and dst's characters after it; an over-long src comes back alone |
| Layout.InsertRightAligned | draftr.js:166-168 | when src fits: same length as dst, src at offset len(dst) - len(src) and dst's characters before it; an over-long src comes back alone |
| Layout.InsertCentered | draftr.js:174-177 | when src fits: same length as dst, src at offset floor((len(dst) - len(src)) / 2), dst's characters on both sides, left margin never wider than the right; an over-long src comes back alone |
| Layout.Fill | draftr.js:157-160 | the inner loop appends a prefix of the words, stays within the width when it starts within it, takes at least one word when the first fits, and leaves words only when the next would not fit |
| Layout.WrapWords | draftr.js:149-162 | the outer loop gives no lines exactly for no words, every line starts with the indent, the first line with the indent and a space, and every line is the indent alone or the indent followed by a space |
| Layout.WrapWordsGreedy | draftr.js:149-161 | the lines are packed greedily: the first word of each line would not have fit, after a space, at the end of the line before it, and only the line after an oversized word may hold the indent alone |
| Layout.GreedyAt | draftr.js:157-161 | in greedily packed lines, line i and line i+1 satisfy that condition for every i |
| Layout.FirstLineLeads | draftr.js:150-159 | the first wrapped line opens with the first word |
| Layout.GreedyExample | draftr.js:149-161 | the words "a" and "b" within 10 columns share the line " a b", and one word per line is not greedy |
| Layout.WrapWordsWithinWidth | draftr.js:149-161 | for space-free words and an indent within the width, every line is within the width unless it holds exactly one oversized word |
| Layout.WrapWordsKeepsWords | draftr.js:149-162 | reading the words back from the lines gives exactly the input words, in order, and each line is exactly its indent followed by " word" for each of the words read from it, so nothing on a line is left unread |
| Layout.IndentedLineWords | draftr.js:150-159 | a line that is the indent alone or the indent and a space is the indent followed by " word" for each word read from it |
| Layout.LinesAreTheirWords | draftr.js:150-161 | every line of such a list is its indent followed by its words, each after one space |
| Layout.LineWordsOfSpaced | draftr.js:159 | a line built by appending " word" pieces after the indent reads back as those words |
| Layout.SpacedIsJoin | draftr.js:159 | the appended " word" pieces are the words joined by spaces after an empty first piece |
| Layout.WrapText | draftr.js:140-164 | an indent or width of 0 gives `[text]`; otherwise at least one line, every line starts with indent-1 spaces and is those spaces alone or followed by a space, and the first starts with indent spaces; with 0 < indent <= width+1 every line is within the width except a one-word oversized line; and the lines are packed greedily, each line's first word too long to have joined the line before |
| Layout.WrapTextKeepsWords | draftr.js:140-164 | the words of the wrapped lines are exactly `text.split(/\s+/)` in order, joined by spaces they give the text with its whitespace collapsed, and each line is its indent followed by its words, each after one space |
| Layout.OversizedWordLeavesIndentLine | draftr.js:153-161 | a lone word too long for the line comes out on its own line, followed by a line holding only the indent |
| Layout.OversizedWordThenWord | draftr.js:153-161 | a word that fits, after an oversized word, fills the line after it: no indent-only line is left between |
| Markdown.HashRun | draftr.js:89-90 | the length of the leading run of '#' characters |
| Markdown.Classify | draftr.js:84-104 | a run is a heading exactly when it is one ATX heading line or two lines whose second is all '=' or all '-'; an ATX heading has level = number of '#' and the title with leading spaces removed; a two-line heading has level 1 for '=' and 2 for '-' and the first line as title; anything else is text whose content is the lines' tokens joined by single spaces, keeping every non-whitespace character in order |
| Markdown.AtxHeadingRoundTrip | draftr.js:87-92 | hashes, one or more spaces and a title lex back to that heading |
| Markdown.AtxHeadingShape | draftr.js:87-92 | conversely, every line the heading test accepts is hashes, at least one space and a title not starting with a space |
| Markdown.HashRunOf | draftr.js:89-90 | the hash count of hashes followed by a non-'#' character is the number of hashes |
| Markdown.TrimSpacesBefore | draftr.js:91 | stripping leading spaces from spaces plus a title gives the title |
| Markdown.SetextHeading | draftr.js:93-98 | a two-line run is a heading exactly when its second line is all '=' (level 1) or all '-' (level 2), with the first line verbatim as title |
| Markdown.LexBody | draftr.js:77-107 | each block uses at least one line and the blank line after it, so there are at most half as many blocks as lines (one more line's worth when a run is already pending) |
| Markdown.FirstBlank | draftr.js:78-83 | the position of the first blank line, with no blank line before it |
| Markdown.LexBodyIsClassifiedRuns | draftr.js:77-107 | the body blocks are exactly the classified runs of non-blank lines that a blank line ends, one block per run, in source order |
| Markdown.LexBodyPending | draftr.js:78-107 | the loop gathers lines up to the first blank line and emits the pending run there if non-empty, or nothing if no blank line follows |
| Markdown.LexBodyConsumes | draftr.js:79-82 | non-blank lines only extend the pending run |
| Markdown.UnterminatedRunEmitsNothing | draftr.js:78-107 | lines without a blank line emit no block |
| Markdown.FinalRunDropped | draftr.js:78-107 | a final run of non-blank lines with no blank line after it adds no block |
| Markdown.CollapseFirstSpaceRun | draftr.js:65 | text without a space is unchanged by the first-run collapse |
| Markdown.CollapseFirstRunShape | draftr.js:65 | only the first run of spaces becomes one space; the rest is left as written |
| Markdown.AbstractText | draftr.js:63-67 | the abstract neither starts nor ends with a space, and apart from spaces it holds exactly the characters of the section's lines, in order |
| Markdown.CollapseFirstRunKeepsText | draftr.js:65 | the first-run collapse drops only spaces |
| Markdown.AbstractTextShape | draftr.js:63-67 | lines that join into a space-free head, one run of spaces and a rest give the head, one space and the rest, trimmed: later runs of spaces stay |
| Markdown.DividerIffPrefix | draftr.js:50 | `line.indexOf(divider) == 0` holds exactly when the line starts with the divider |
| Markdown.NextDivider | draftr.js:49-51 | the first divider line at or after the start, or the end, with no divider before it |
| Markdown.LexSections | draftr.js:57-110 | the blocks found before are kept as a prefix of the result |
| Markdown.SectionsWithoutMarker | draftr.js:57-110 | with no `abstract` marker among the remaining lines the abstract stays as it was, and with no `middle` marker no block is added |
| Markdown.Lex | draftr.js:46-57 | a text with no divider line after the first line gives all its other lines as metadata text, no abstract and no blocks; without an `abstract` marker the abstract is empty, and without a `middle` marker there are no blocks |
| Markdown.NextDividerAt | draftr.js:59-61 | the section end is the first divider after a divider-free stretch |
| Markdown.NoDividerIn | draftr.js:60 | lines that do not start with the divider open no section |
| Markdown.AbstractSectionUpTo | draftr.js:63-68 | an abstract section ending at the next divider sets the abstract to its lines' text |
| Markdown.FinalMiddleSection | draftr.js:69-107 | a middle section that runs to the end gives the blocks of its lines |
| Markdown.AssembledLines | draftr.js:46 | where the divider, metadata, abstract and middle parts sit among the lines of an assembled document |
| Markdown.AssembledDividers | draftr.js:49-61 | in an assembled document only the two section lines are dividers after line 0 |
| Markdown.AssembledSections | draftr.js:57-110 | the metadata ends at the abstract line, and the sections give the abstract text and the body blocks |
| Markdown.LexAssembledDocument | draftr.js:46-110 | a document assembled from divider, metadata lines, abstract section and middle section lexes back into its metadata text, abstract and body blocks |
| Markdown.LexSkipsUnmarkedSection | draftr.js:57-110 | a section whose opening line has neither marker, put between the metadata and the abstract, leaves the metadata text, the abstract and the body blocks as they are without it |
| Markdown.SkippedDocumentLexes | draftr.js:46-110 | a document with such a section lexes into the metadata lines, the abstract of the abstract section and the blocks of the middle section |
| Render.RenderStatus | draftr.js:179-187 | the label is "Standards Track", "Informational", "Experimental" or "BCP" exactly when the lower-cased category is std, info, exp or bcp respectively, and "Unknown" exactly when it is none of them |
| Render.RenderStatusExamples | draftr.js:179-187 | "STD", "Info", "eXp" and "BCP" get their labels whatever their case; "standard" is "Unknown" |
| Render.AuthorRowsLength | draftr.js:282-289 | the right column's author rows number one per author plus one per listed organisation |
| Render.AuthorRowsAt | draftr.js:282-289 | each author's name sits at its own row in order, and its organisation follows on the next row exactly when it is the last author or the next author's organisation differs |
| Render.RightColumn | draftr.js:281-290 | the right column has the author rows and then the issue date as its last row |
| Render.LeftColumn | draftr.js:275-280 | four entries: "Network Working Group", "Internet-Draft", then "Intended status: " and the status label, then "Expires: " and the expiry date |
| Render.MergeLine | draftr.js:292-297 | a header line has the left entry at the left, the right entry at the right and spaces between, when they fit |
| Render.ColumnLines | draftr.js:292-297 | one merged line per row of the longer column |
| Render.FrontMatter | draftr.js:291-309 | three blank lines, the merged left and right columns (max(4, right-column rows) lines), two blank lines, then the title and document name centred; the title takes one line |
| Render.FrontMatterShowsAuthor | draftr.js:281-297 | each author's name ends the front-matter line of its row, and a listed organisation ends the next line, when it fits beside the left column's entry |
| Render.RightEntryAt | draftr.js:292-297 | a right-column entry that fits beside its left entry ends its merged line |
| Render.AbstractGroup | draftr.js:312-314 | "Abstract", a blank line, then the abstract wrapped at indent 3 within 72 columns: lines indented by two spaces and within the width except for an oversized word |
| Render.AbstractGroupKeepsWords | draftr.js:312-314 | the words of the abstract's lines, read after the two-space indent, are the words of the abstract in order, joined by spaces they are the abstract with its whitespace collapsed, and each line is the indent followed by its words, each after one space |
| Render.Reset | draftr.js:329-331 | `sectionReset(level)` keeps the counters before `level` and sets every counter from `level` on to 0 |
| Render.Bump | draftr.js:337-338 | a heading at level l keeps counters 0..l-2, increments counter l-1 and zeroes the deeper ones |
| Render.Components | draftr.js:339 | the first l counters, each printed in decimal |
| Render.NumberPrefix | draftr.js:339 | the section number ends with ". " |
| Render.NumberPrefixRoundTrip | draftr.js:339 | the section number without its ". ", split at the dots, reads back as exactly the first l counters, each part a canonical numeral |
| Render.NumberingExample | draftr.js:328-339 | headings at levels 1, 2, 2, 1, 3 are numbered 1, 1.1, 1.2, 2 and 2.0.1 |
| Render.SkippedLevelPrefix | draftr.js:339 | the heading after a skipped level prints as "2.0.1. " |
| Render.RenderHeading | draftr.js:337-342 | a heading's first line is the number followed by its wrapped line with exactly that many leading padding characters removed, which were all spaces; the other lines are the wrapped lines |
| Render.RenderBlock | draftr.js:334-346 | at least one line; a heading bumps its level's counter and a paragraph leaves the counters alone and is wrapped at indent 3 within 72 columns |
| Render.RenderBlocks | draftr.js:348-350 | one rendered group per body block |
| Render.RenderBlocksInContext | draftr.js:348-350 | group i is block i rendered with the counters left by the blocks before it |
| Render.LegalGroups | draftr.js:317-321 | the trust200902 paragraphs for that IPR value, and no boilerplate for any other |
| Render.Preamble | draftr.js:309-325 | front matter, abstract, boilerplate, table-of-contents placeholder, in that order |
| Render.Groups | draftr.js:309-350 | the preamble groups come first, followed by one group per body block |
| Render.GroupOfBlock | draftr.js:348-350 | the group of body block i is that block rendered with the counters left by the blocks before it |
| Render.PageHeader | draftr.js:356-359 | "Internet-Draft " at the left and the month at the right win over the centred short title, which shows in between on a background of spaces |
| Render.OverlaidChar | draftr.js:357-359 | a header column covered by neither the left nor the right overlay shows the centred title |
| Render.InitialRun | draftr.js:363 | the length of the leading run of capitals and dots |
| Render.Surname | draftr.js:363 | `replace(/^[A-Z.]*\s+/, "")`: the name is unchanged exactly when no whitespace follows the leading initials; otherwise that whitespace run is dropped with the initials |
| Render.SurnameOfInitials | draftr.js:363 | initials, whitespace and a surname give the surname |
| Render.InitialRunOf | draftr.js:363 | the initials run of initials followed by whitespace is exactly the initials |
| Render.ShortName | draftr.js:361-372 | the surname of a single author, "A & B" for two authors, "A, et al." for more |
| Render.ShortNameOfLongLists | draftr.js:368-369 | beyond two authors only the first author matters |
| Render.FooterBase | draftr.js:373-374 | the footer shows "Expires <date>" centred; every other column shows the author name where the name reaches and a space beyond it |
| Render.PageTag | draftr.js:209-211 | the tag is "[Page ", the page number in decimal and "]"; the digits are a canonical numeral and read back as the page number |
| Render.MakeFooter | draftr.js:375-377 | the page tag at the right of the footer, the rest of the footer unchanged |
| Paginate.PlanFrom | draftr.js:393-412 | from any state of the loop, the plan has one entry per group, at most one break before each group and one final break |
| Paginate.Plan | draftr.js:393-412 | the plan holds the groups in order, its breaks close pages 1, 2, ... in turn, and it ends with the only break marked last |
| Paginate.GroupsOfAppend | draftr.js:396-410 | the groups of consecutive plan parts are the concatenation of their groups |
| Paginate.BreaksOfAppend | draftr.js:396-412 | the breaks of consecutive plan parts are the concatenation of their breaks |
| Paginate.LoadAppend | draftr.js:397-408 | the row count runs on across consecutive plan parts |
| Paginate.PlanKeepsGroups | draftr.js:396-410 | removing the breaks from the plan gives the rendered groups unchanged and in order |
| Paginate.PlanBreaks | draftr.js:393-412 | the breaks close pages numbered consecutively from the first page, and only the final break is the last-page one |
| Paginate.PlanEndsWithLastBreak | draftr.js:411-412 | from any state of the loop, the plan ends with the last-page break |
| Paginate.LastBreakPage | draftr.js:411-412 | the final entry is the last entry of the list of breaks |
| Paginate.PlanPageCount | draftr.js:393-412 | the final break closes page n, where n is the number of pages |
| Paginate.BreakFillsPage | draftr.js:405-406 | every break's filler is the page's rows minus the rows already used on it |
| Paginate.BreakOnlyWhenFull | draftr.js:397-409 | a page is closed early only when the next group with its blank line would not fit, and that group opens the next page |
| Paginate.PlacedGroupFits | draftr.js:397-400 | a group that does not open a page was placed where it and its blank line fit |
| Paginate.PageIsFull | draftr.js:405-408 | on a page closed by a break with non-negative filler, the rows in use plus the filler lines are exactly `rows` (54 in `toTXT`), and the footer and form feed follow |
| Paginate.BreakBlock | draftr.js:378-387 | max(space, 0) empty lines, the numbered footer, a form feed, and the header only when it is not the last page |
| Paginate.Expand | draftr.js:405-411 | one line block per plan entry: a group as it was rendered, a break laid out as its break block |
| Paginate.PaginateLoop | draftr.js:393-412 | the loop with running page and row count computes the plan, keeps the groups and ends with the last-page break |
| Paginate.PlanExample | draftr.js:393-412 | three 4-line groups on 10-row pages: two on page 1, the third opens page 2 with 3 rows of filler |
| Draftr.FromMD | draftr.js:38-113 | the conversion fails exactly when the metadata parser fails; otherwise the document holds the parsed metadata and the lexed abstract and blocks |
| Draftr.Serialize | draftr.js:415-421 | a non-empty list of blocks serialises to a text that ends with two newlines, the blank line after the last block |
| Draftr.SerializeAppend | draftr.js:418-421 | the serialised text of consecutive blocks is the concatenation of their texts |
| Draftr.ToTxt | draftr.js:264-423 | the text of a document ends with the last page's form feed and a blank line |
| Draftr.PaginatedText | draftr.js:393-422 | paginated, laid-out and serialised groups end with the form feed and a blank line |
| Draftr.SerializedPlanEnds | draftr.js:411-421 | a plan ending in the last-page break serialises to a text ending in its form feed and a blank line |
| Draftr.ExpansionEndsWithFormFeed | draftr.js:382-383 | the last laid-out line of such a plan is the form feed |
| Draftr.SerializedEnds | draftr.js:418-421 | blocks whose last line is a form feed serialise to a text ending in the form feed and a blank line |
| Draftr.ToMD | draftr.js:115-117 | always fails as not implemented |
| Draftr.FromXML | draftr.js:119-121 | always fails as not implemented |
| Draftr.ToXML | draftr.js:123-125 | always fails as not implemented |
| Draftr.FromTXT | draftr.js:127-129 | always fails as not implemented |

## Left out

- `YAML.parse` (draftr.js:55) is a foreign library. It is the `parseMeta`
  parameter of `FromMD`. Its result is the `Meta` record.
- Date arithmetic and formatting (`addSixMonths`, `renderDate`,
  `renderHeaderDate`, draftr.js:189-207) depend on the JavaScript `Date`
  object. The three date texts are inputs, in the `Dates` record.
- The boilerplate paragraphs and the table-of-contents placeholder
  (draftr.js:213-256) are constant text. They are inputs, in the `Literals`
  record. They are selected only for the IPR value `trust200902`.
- `console.log` (draftr.js:416-417) is output only and is not modelled.
- `toMD`, `fromXML`, `toXML` and `fromTXT` (draftr.js:115-129) throw. They are
  modelled as a `NotImplemented` failure.
- Render.LowerAscii: lower-cases only the letters A to Z. JavaScript's
  `toLowerCase` covers all of Unicode. The categories draftr recognises are
  ASCII, so this changes which label is chosen only for a category with
  non-ASCII capitals.
- Strings count characters, where JavaScript counts UTF-16 code units.
  Lengths, and with them the widths and offsets of the layout, agree for text
  in the Basic Multilingual Plane only.
- Layout.WrapWords: its own contract gives the shape of the lines, not their
  greedy packing. That is stated for every input by `WrapWordsGreedy`, and
  `WrapText` carries it in its contract.
- Draftr.ToTxt: requires at least one author. With none, draftr fails on
  `authorName` being undefined (draftr.js:373).
- Draftr.ToTxt: requires every heading level to be between 1 and 6. A deeper
  level prints NaN counters in draftr (draftr.js:338).
- Draftr.ToTxt: its own contract only states how the text ends. The layout of
  the text is stated by the contracts of its parts: `Groups`, `GroupOfBlock`,
  the `Paginate` lemmas, `BreakBlock` and `SerializeAppend`.
- Draftr.PaginatedText: its own contract only states how the text ends. The
  layout comes from the lemmas about its parts. `Plan`, `PlanKeepsGroups` and
  `PlanBreaks` give the groups and the page numbers. `BreakFillsPage`,
  `BreakOnlyWhenFull`, `PlacedGroupFits` and `PageIsFull` give the page fill.
  `Expand` and `BreakBlock` give the laid-out lines, and `SerializeAppend`
  gives the text.

## Behaviour of the code worth knowing

- Section numbers keep a 0 for a skipped level. For headings at levels 1, 2,
  2, 1 and 3, the last heading is numbered "2.0.1."
  (`NumberingExample`, `SkippedLevelPrefix`).
- Text paragraphs have their whitespace collapsed but are not trimmed. A
  paragraph line with leading spaces keeps one leading space.
- The abstract clean-up collapses only the first run of spaces, because the
  replacement has no `g` flag. Later runs are kept (`CollapseFirstRunShape`).
- An IPR value other than `trust200902` gives no boilerplate, without an error.
- A run of lines still pending when a middle section ends is dropped unless a
  blank line follows it (`FinalRunDropped`).
- The `abstract` and `middle` markers are searched for on the divider line,
  from the divider's length on. `abstract` is tested first.
- The title is never wrapped, because it is passed to `wrapText` with indent 0.
- `blank` gives the empty string for a negative width. A break block whose
  filler is negative, after an oversized group, has no filler lines. The
  page then runs long.
- A word too long for a line gets a line of its own. The words after it fill
  the next line. That line holds only the indent when the oversized word is
  the last word, or when the next word is oversized too
  (`OversizedWordLeavesIndentLine`, `OversizedWordThenWord`).
- A first group too large for a page produces a break before it. Page 1 then
  holds nothing but its footer.

=== FILE: draftr.dfy ===
/**
 The entry points of draftr: reading a Markdown draft into a document,
 writing a document as paginated plain text, and the conversions that are
 declared but not implemented.
 */
module Draftr {
  import opened Strings
  import opened Markdown
  import opened Render
  import opened Paginate

  /** Why a conversion did not produce a result: the metadata parser
      rejected the metadata text, or the conversion is not implemented. */
  datatype Error = MetadataError(message: string) | NotImplemented

  datatype Result<T> = Success(value: T) | Failure(error: Error)

  /** `fromMD`: the text is lexed and its metadata section handed to the
      metadata parser. A parser failure is the failure of the whole
      conversion; otherwise the document holds the parsed metadata and the
      lexed abstract and body blocks. */
  function FromMD(text: string, parseMeta: string -> Result<Meta>): (r: Result<Document>)
    ensures parseMeta(Lex(text).metaText).Failure? <==> r.Failure?
    ensures r.Failure? ==> r.error == parseMeta(Lex(text).metaText).error
    ensures r.Success? ==>
      && r.value.meta == parseMeta(Lex(text).metaText).value
      && r.value.abstractText == Lex(text).abstractText
      && r.value.blocks == Lex(text).blocks
  {
    var lexed := Lex(text);
    match parseMeta(lexed.metaText)
    case Failure(e) => Failure(e)
    case Success(meta) => Success(Document(meta, lexed.abstractText, lexed.blocks))
  }

  /** Joins the blocks of the output, each block's lines separated by a
      newline and each block followed by a blank line. */
  function Serialize(blocks: seq<seq<string>>): (text: string)
    ensures |blocks| > 0 ==> |text| >= 2 && text[|text| - 2] == '\n' && text[|text| - 1] == '\n'
  {
    if |blocks| == 0 then ""
    else
      Serialize(blocks[..|blocks| - 1]) + Join(blocks[|blocks| - 1], "\n") + "\n\n"
  }

  /** Serialising is compositional: the text of consecutive runs of blocks
      is the concatenation of their texts. */
  lemma {:induction false} SerializeAppend(xs: seq<seq<string>>, ys: seq<seq<string>>)
    ensures Serialize(xs + ys) == Serialize(xs) + Serialize(ys)
    decreases |ys|
  {
    if |ys| == 0 {
      assert xs + ys == xs;
    } else {
      var n := |ys| - 1;
      var front := ys[..n];
      var last := Join(ys[n], "\n") + "\n\n";
      assert ys == front + [ys[n]];
      assert xs + ys == (xs + front) + [ys[n]];
      SerializeAppend(xs, front);
      SerializeSnoc(xs + front, ys[n]);
      SerializeSnoc(front, ys[n]);
      StringAssoc(Serialize(xs), Serialize(front), last);
    }
  }

  /** One more block adds its lines and a blank line at the end. */
  lemma SerializeSnoc(front: seq<seq<string>>, block: seq<string>)
    ensures Serialize(front + [block]) == Serialize(front) + (Join(block, "\n") + "\n\n")
  {
    var zs := front + [block];
    assert zs[..|zs| - 1] == front;
  }

  /** `toTXT`: the document's groups, paginated on pages of 54 rows, laid
      out and serialised. The text always closes with the last page's form
      feed and the blank line after its block. */
  function ToTxt(doc: Document, dates: Dates, literals: Literals): (text: string)
    requires |doc.meta.author| >= 1
    requires LevelsInRange(doc.blocks)
    ensures EndsWith(text, "\U{000C}\n\n")
  {
    PaginatedText(Groups(doc, dates, literals),
                  FooterBase(ShortName(doc.meta.author), dates.expires),
                  PageHeader(doc.meta.abbrev, dates.month))
  }

  /** The groups paginated, laid out with the given footer and header, and
      serialised. */
  function PaginatedText(groups: seq<seq<string>>, footer: string, header: string): (text: string)
    ensures EndsWith(text, "\U{000C}\n\n")
  {
    PlanEndsWithLastBreak(groups, RfcRows, 1, 0);
    SerializedPlanEnds(Plan(groups, RfcRows), footer, header);
    Serialize(Expand(Plan(groups, RfcRows), footer, header))
  }

  /** A laid-out plan whose final entry is the last page's break serialises
      to a text ending in that page's form feed and a blank line. */
  lemma SerializedPlanEnds(plan: seq<Item>, footer: string, header: string)
    requires |plan| >= 1 && plan[|plan| - 1].Break? && plan[|plan| - 1].last
    ensures EndsWith(Serialize(Expand(plan, footer, header)), "\U{000C}\n\n")
  {
    ExpansionEndsWithFormFeed(plan, footer, header);
    SerializedEnds(Expand(plan, footer, header));
  }

  /** The last line of the last block is a form feed. */
  predicate ClosesWithFormFeed(blocks: seq<seq<string>>) {
    |blocks| >= 1 && |blocks[|blocks| - 1]| >= 1
    && blocks[|blocks| - 1][|blocks[|blocks| - 1]| - 1] == "\U{000C}"
  }

  /** The last line of a laid-out plan that ends with the last page's break
      is that break's form feed. */
  lemma ExpansionEndsWithFormFeed(plan: seq<Item>, footer: string, header: string)
    requires |plan| >= 1 && plan[|plan| - 1].Break? && plan[|plan| - 1].last
    ensures ClosesWithFormFeed(Expand(plan, footer, header))
  {
    var n := |plan| - 1;
    var final := plan[n];
    var closing := BreakBlock(final.space, final.page, true, footer, header);
    assert Expand(plan, footer, header)[n] == closing;
  }

  /** Blocks whose last block closes with a form feed serialise to a text
      ending in that form feed and a blank line. */
  lemma SerializedEnds(blocks: seq<seq<string>>)
    requires ClosesWithFormFeed(blocks)
    ensures EndsWith(Serialize(blocks), "\U{000C}\n\n")
  {
    var n := |blocks| - 1;
    var closing := blocks[n];
    var front := Serialize(blocks[..n]);
    assert Serialize(blocks) == front + Join(closing, "\n") + "\n\n";
    JoinEndsWithLast(closing, "\n");
    EndsWithAfter(front, Join(closing, "\n"), "\U{000C}");
    EndsWithBefore(front + Join(closing, "\n"), "\U{000C}", "\n\n");
    assert "\U{000C}" + "\n\n" == "\U{000C}\n\n";
  }

  /** `toMD`, `fromXML`, `toXML` and `fromTXT` are declared but always fail
      as not implemented. */
  function ToMD(doc: Document): (r: Result<string>)
    ensures r == Failure(NotImplemented)
  {
    Failure(NotImplemented)
  }

  function FromXML(text: string): (r: Result<Document>)
    ensures r == Failure(NotImplemented)
  {
    Failure(NotImplemented)
  }

  function ToXML(doc: Document): (r: Result<string>)
    ensures r == Failure(NotImplemented)
  {
    Failure(NotImplemented)
  }

  function FromTXT(text: string): (r: Result<Document>)
    ensures r == Failure(NotImplemented)
  {
    Failure(NotImplemented)
  }
}

=== FILE: layout.dfy ===
/**
 Fixed-width line composition for the plain-text rendering: blank lines,
 overlaying a string onto a line at the left, the right or the centre, and
 greedy word wrapping with a hanging indent.
 */
module Layout {
  import opened Strings

  /** A line of `width` spaces; a width of zero or less gives the empty line. */
  function Blank(width: int): (r: string)
    ensures |r| == Max(width, 0)
    ensures AllChar(r, ' ')
  {
    seq(Max(width, 0), _ => ' ')
  }

  /** Overlays `src` at the start of `dst`. An over-long `src` comes back alone. */
  function InsertLeftAligned(src: string, dst: string): (r: string)
    ensures |src| <= |dst| ==> |r| == |dst| && r[..|src|] == src && r[|src|..] == dst[|src|..]
    ensures |src| > |dst| ==> r == src
  {
    src + SubstrFrom(dst, |src|)
  }

  /** Overlays `src` at the end of `dst`. An over-long `src` comes back alone. */
  function InsertRightAligned(src: string, dst: string): (r: string)
    ensures |src| <= |dst| ==>
      && |r| == |dst|
      && r[|dst| - |src|..] == src
      && r[..|dst| - |src|] == dst[..|dst| - |src|]
    ensures |src| > |dst| ==> r == src
  {
    Substr(dst, 0, |dst| - |src|) + src
  }

  /** Overlays `src` on the middle of `dst`, at offset floor((|dst| - |src|) / 2),
      so that the margin on the left is never wider than the one on the right.
      An over-long `src` comes back alone. */
  function InsertCentered(src: string, dst: string): (r: string)
    ensures |src| <= |dst| ==>
      var start := (|dst| - |src|) / 2;
      && 0 <= start <= |dst| - |src| - start <= start + 1
      && |r| == |dst|
      && r[..start] == dst[..start]
      && r[start..start + |src|] == src
      && r[start + |src|..] == dst[start + |src|..]
    ensures |src| > |dst| ==> r == src
  {
    var start := (|dst| - |src|) / 2;
    Substr(dst, 0, start) + src + SubstrFrom(dst, start + |src|)
  }

  /** The words of a line as they are laid out after the indent: " w1 w2 ... wn". */
  function Spaced(words: seq<string>): string
  {
    if |words| == 0 then "" else " " + words[0] + Spaced(words[1..])
  }

  lemma {:induction false} SpacedIsJoin(words: seq<string>)
    ensures Spaced(words) == Join([""] + words, " ")
  {
    if |words| > 0 {
      SpacedIsJoin(words[1..]);
      assert ([""] + words)[1..] == words;
      JoinConsHead(words[0], [""] + words[1..], " ");
      assert [words[0] + ""] + ([""] + words[1..])[1..] == words by {
        assert words[0] + "" == words[0];
        assert ([""] + words[1..])[1..] == words[1..];
      }
    }
  }

  /** One pass of the inner loop of wrapText: appends words to `line` while
      the line stays within `width`. Returns the line and how many words it took.
      Words are left over only when the next one would not fit. */
  function Fill(line: string, words: seq<string>, width: int): (r: (string, nat))
    ensures r.1 <= |words|
    ensures r.0 == line + Spaced(words[..r.1])
    ensures r.1 < |words| ==> |r.0| + |words[r.1]| + 1 > width
    ensures |line| <= width ==> |r.0| <= width
    ensures |words| > 0 && |line| + |words[0]| + 1 <= width ==> r.1 >= 1
    decreases |words|
  {
    if |words| > 0 && |line| + |words[0]| + 1 <= width then
      var (filled, n) := Fill(line + " " + words[0], words[1..], width);
      assert words[..n + 1] == [words[0]] + words[1..][..n];
      assert Spaced(words[..n + 1]) == " " + words[0] + Spaced(words[1..][..n]);
      (filled, n + 1)
    else
      (line, 0)
  }

  /** A line holding the indent, one space and a single word. */
  predicate IsLoneWord(tab: string, line: string) {
    && |tab| < |line|
    && line[..|tab| + 1] == tab + " "
    && ' ' !in line[|tab| + 1..]
  }

  /** A wrapped line: the indent alone, or the indent followed by a space
      and the words. Nothing else sits right after the indent. */
  predicate IndentedLine(tab: string, line: string) {
    line == tab || StartsWith(line, tab + " ")
  }

  /** A wrapped line keeps to the width unless it holds one oversized word. */
  predicate WithinWidth(tab: string, line: string, width: int) {
    |line| <= width || IsLoneWord(tab, line)
  }

  /** The outer loop of wrapText over the remaining words. Each pass starts a
      line with the indent `tab`; a word that cannot fit even on a fresh line
      is put on a line of its own, after which the pass goes on filling the
      fresh line (which may stay empty). */
  function WrapWords(words: seq<string>, tab: string, width: int): (lines: seq<string>)
    ensures |words| == 0 <==> |lines| == 0
    ensures forall i :: 0 <= i < |lines| ==> StartsWith(lines[i], tab)
    ensures forall i :: 0 <= i < |lines| ==> IndentedLine(tab, lines[i])
    ensures |words| > 0 ==> StartsWith(lines[0], tab + " ")
    decreases |words|
  {
    if |words| == 0 then []
    else if |tab| + |words[0]| + 1 > width then
      var (line, n) := Fill(tab, words[1..], width);
      var rest := WrapWords(words[1..][n..], tab, width);
      LoneWordLine(tab, words[0]);
      PrefixOfSpaced(tab, words[1..][..n]);
      assert n == 0 ==> line == tab by {
        assert n == 0 ==> words[1..][..n] == [];
      }
      Prepended([tab + " " + words[0], line], rest);
      [tab + " " + words[0], line] + rest
    else
      var (line, n) := Fill(tab, words, width);
      var rest := WrapWords(words[n..], tab, width);
      PrefixOfSpaced(tab, words[..n]);
      assert StartsWith(line, tab + " ") by {
        assert words[..n][0] == words[0];
      }
      Prepended([line], rest);
      [line] + rest
  }

  /** When no word contains a space and the indent fits, every wrapped line
      is within `width`, except a line holding one oversized word. */
  lemma {:induction false} WrapWordsWithinWidth(words: seq<string>, tab: string, width: int)
    requires forall i :: 0 <= i < |words| ==> ' ' !in words[i]
    requires |tab| <= width
    ensures forall i :: 0 <= i < |WrapWords(words, tab, width)| ==>
      WithinWidth(tab, WrapWords(words, tab, width)[i], width)
    decreases |words|, 1
  {
    if |words| == 0 {
    } else if |tab| + |words[0]| + 1 > width {
      OversizedPassWithinWidth(words, tab, width);
    } else {
      FittingPassWithinWidth(words, tab, width);
    }
  }

  lemma {:induction false} OversizedPassWithinWidth(words: seq<string>, tab: string, width: int)
    requires forall i :: 0 <= i < |words| ==> ' ' !in words[i]
    requires |tab| <= width
    requires |words| > 0 && |tab| + |words[0]| + 1 > width
    ensures forall i :: 0 <= i < |WrapWords(words, tab, width)| ==>
      WithinWidth(tab, WrapWords(words, tab, width)[i], width)
    decreases |words|, 0
  {
    var lines := WrapWords(words, tab, width);
    var (line, n) := Fill(tab, words[1..], width);
    var rest := WrapWords(words[1..][n..], tab, width);
    WrapWordsWithinWidth(words[1..][n..], tab, width);
    LoneWordLine(tab, words[0]);
    assert lines == [tab + " " + words[0], line] + rest;
    assert WithinWidth(tab, lines[0], width) && WithinWidth(tab, lines[1], width);
    forall i | 2 <= i < |lines| ensures WithinWidth(tab, lines[i], width) {
      assert lines[i] == rest[i - 2];
      assert WithinWidth(tab, rest[i - 2], width);
    }
  }

  lemma {:induction false} FittingPassWithinWidth(words: seq<string>, tab: string, width: int)
    requires forall i :: 0 <= i < |words| ==> ' ' !in words[i]
    requires |tab| <= width
    requires |words| > 0 && |tab| + |words[0]| + 1 <= width
    ensures forall i :: 0 <= i < |WrapWords(words, tab, width)| ==>
      WithinWidth(tab, WrapWords(words, tab, width)[i], width)
    decreases |words|, 0
  {
    var lines := WrapWords(words, tab, width);
    var (line, n) := Fill(tab, words, width);
    var rest := WrapWords(words[n..], tab, width);
    WrapWordsWithinWidth(words[n..], tab, width);
    assert lines == [line] + rest;
    forall i | 1 <= i < |lines| ensures WithinWidth(tab, lines[i], width) {
      assert lines[i] == rest[i - 1];
      assert WithinWidth(tab, rest[i - 1], width);
    }
  }

  /** The line an oversized word is put on. */
  lemma LoneWordLine(tab: string, word: string)
    ensures StartsWith(tab + " " + word, tab + " ")
    ensures ' ' !in word ==> IsLoneWord(tab, tab + " " + word)
  {
    assert (tab + " " + word)[..|tab| + 1] == tab + " ";
    assert (tab + " " + word)[|tab| + 1..] == word;
  }

  lemma PrefixOfSpaced(tab: string, words: seq<string>)
    ensures StartsWith(tab + Spaced(words), tab)
    ensures |words| > 0 ==> StartsWith(tab + Spaced(words), tab + " ")
  {
    assert (tab + Spaced(words))[..|tab|] == tab;
    if |words| > 0 {
      assert (tab + Spaced(words))[..|tab| + 1] == tab + " ";
    }
  }

  lemma Prepended(head: seq<string>, rest: seq<string>)
    ensures forall i :: 0 <= i < |rest| ==> (head + rest)[|head| + i] == rest[i]
    ensures forall i :: 0 <= i < |head| ==> (head + rest)[i] == head[i]
  {
  }

  /** The first word a wrapped line holds after the indent `tab`, or ""
      when it holds none. */
  function LeadWord(tab: string, line: string): string {
    if |tab| <= |line| && |LineWords(tab, line)| > 0 then LineWords(tab, line)[0] else ""
  }

  /** `next` holds only the indent, or its first word would not have fit,
      after a space, at the end of `line`. */
  predicate Packed(tab: string, line: string, next: string, width: int) {
    next == tab || |line| + 1 + |LeadWord(tab, next)| > width
  }

  /** Every line is followed by one that could not have been pulled up into
      it: the lines are packed greedily. */
  predicate GreedyLines(tab: string, lines: seq<string>, width: int) {
    |lines| <= 1 || (Packed(tab, lines[0], lines[1], width) && GreedyLines(tab, lines[1..], width))
  }

  /** Line `i` and the line after it, in a greedily packed list. */
  lemma {:induction false} GreedyAt(tab: string, lines: seq<string>, width: int, i: nat)
    requires GreedyLines(tab, lines, width)
    requires i + 1 < |lines|
    ensures Packed(tab, lines[i], lines[i + 1], width)
    decreases i
  {
    if i > 0 {
      GreedyAt(tab, lines[1..], width, i - 1);
      assert lines[1..][i - 1] == lines[i] && lines[1..][i] == lines[i + 1];
    }
  }

  lemma GreedyCons(tab: string, line: string, rest: seq<string>, width: int)
    requires |rest| > 0 ==> Packed(tab, line, rest[0], width)
    requires GreedyLines(tab, rest, width)
    ensures GreedyLines(tab, [line] + rest, width)
  {
    assert ([line] + rest)[1..] == rest;
  }

  /** The first wrapped line opens with the first word. */
  lemma FirstLineLeads(words: seq<string>, tab: string, width: int)
    requires forall i :: 0 <= i < |words| ==> ' ' !in words[i]
    requires |words| > 0
    ensures LeadWord(tab, WrapWords(words, tab, width)[0]) == words[0]
  {
    var first := WrapWords(words, tab, width)[0];
    if |tab| + |words[0]| + 1 > width {
      assert Spaced([words[0]]) == " " + words[0] + Spaced([]);
      assert first == tab + " " + words[0] == tab + Spaced([words[0]]);
      LeadOfSpaced(tab, [words[0]]);
    } else {
      var (line, n) := Fill(tab, words, width);
      LeadOfSpaced(tab, words[..n]);
    }
  }

  /** A line of spaced words opens with the first of them. */
  lemma LeadOfSpaced(tab: string, words: seq<string>)
    requires forall i :: 0 <= i < |words| ==> ' ' !in words[i]
    requires |words| > 0
    ensures LeadWord(tab, tab + Spaced(words)) == words[0]
  {
    LineWordsOfSpaced(tab, words);
  }

  /** The outer loop packs greedily: a line is ended only when the first
      word of the next line would not fit after it, except that the line
      after an oversized word may hold only the indent. One word per line,
      for instance, is not what the loop produces. */
  lemma {:induction false} WrapWordsGreedy(words: seq<string>, tab: string, width: int)
    requires forall i :: 0 <= i < |words| ==> ' ' !in words[i]
    ensures GreedyLines(tab, WrapWords(words, tab, width), width)
    decreases |words|, 1
  {
    if |words| == 0 {
    } else if |tab| + |words[0]| + 1 > width {
      OversizedPassGreedy(words, tab, width);
    } else {
      FittingPassGreedy(words, tab, width);
    }
  }

  /** A pass that starts with an oversized word packs greedily when the
      later passes do. */
  lemma {:induction false} OversizedPassGreedy(words: seq<string>, tab: string, width: int)
    requires forall i :: 0 <= i < |words| ==> ' ' !in words[i]
    requires |words| > 0 && |tab| + |words[0]| + 1 > width
    ensures GreedyLines(tab, WrapWords(words, tab, width), width)
    decreases |words|, 0
  {
    var (line, n) := Fill(tab, words[1..], width);
    var later := words[1..][n..];
    var rest := WrapWords(later, tab, width);
    WrapWordsGreedy(later, tab, width);
    if |rest| > 0 {
      FirstLineLeads(later, tab, width);
    }
    GreedyCons(tab, line, rest, width);
    OversizedThenFilled(words, tab, width);
    GreedyCons(tab, tab + " " + words[0], [line] + rest, width);
    assert WrapWords(words, tab, width) == [tab + " " + words[0]] + ([line] + rest);
  }

  /** The line filled after an oversized word could not have joined it. */
  lemma OversizedThenFilled(words: seq<string>, tab: string, width: int)
    requires forall i :: 0 <= i < |words| ==> ' ' !in words[i]
    requires |words| > 0 && |tab| + |words[0]| + 1 > width
    ensures Packed(tab, tab + " " + words[0], Fill(tab, words[1..], width).0, width)
  {
    var (line, n) := Fill(tab, words[1..], width);
    if line != tab {
      assert n >= 1;
      LeadOfSpaced(tab, words[1..][..n]);
    }
  }

  /** A pass whose first word fits packs greedily when the later passes do. */
  lemma {:induction false} FittingPassGreedy(words: seq<string>, tab: string, width: int)
    requires forall i :: 0 <= i < |words| ==> ' ' !in words[i]
    requires |words| > 0 && |tab| + |words[0]| + 1 <= width
    ensures GreedyLines(tab, WrapWords(words, tab, width), width)
    decreases |words|, 0
  {
    var (line, n) := Fill(tab, words, width);
    var rest := WrapWords(words[n..], tab, width);
    WrapWordsGreedy(words[n..], tab, width);
    if |rest| > 0 {
      FirstLineLeads(words[n..], tab, width);
    }
    GreedyCons(tab, line, rest, width);
  }

  /** Two short words share a line; one word per line is not greedy. */
  lemma GreedyExample()
    ensures WrapWords(["a", "b"], "", 10) == [" a b"]
    ensures !GreedyLines("", [" a", " b"], 10)
  {
    assert ["a", "b"][1..] == ["b"] && ["b"][1..] == [];
    assert "" + " " + "a" == " a" && " a" + " " + "b" == " a b";
    assert Fill(" a b", [], 10) == (" a b", 0);
    assert Fill(" a", ["b"], 10) == (" a b", 1);
    assert Fill("", ["a", "b"], 10) == (" a b", 2);
    assert ["a", "b"][2..] == [];
    assert Spaced(["b"]) == " b" by {
      assert Spaced(["b"]) == " " + "b" + Spaced([]);
    }
    LineWordsOfSpaced("", ["b"]);
    assert "" + " b" == " b";
    assert LeadWord("", " b") == "b";
  }

  /** wrapText: an indent or a width of zero switches wrapping off. Otherwise
      the text is split at whitespace runs and laid out greedily; every line
      starts with `indent - 1` spaces and the first line with `indent`. */
  function WrapText(text: string, indent: int, width: int): (lines: seq<string>)
    ensures |lines| >= 1
    ensures indent == 0 || width == 0 ==> lines == [text]
    ensures indent != 0 && width != 0 ==>
      && (forall i :: 0 <= i < |lines| ==> StartsWith(lines[i], Blank(indent - 1)))
      && StartsWith(lines[0], Blank(indent - 1) + " ")
    ensures indent != 0 && width != 0 ==>
      forall i :: 0 <= i < |lines| ==> IndentedLine(Blank(indent - 1), lines[i])
    ensures width != 0 && 0 < indent <= width + 1 ==>
      forall i :: 0 <= i < |lines| ==> WithinWidth(Blank(indent - 1), lines[i], width)
    ensures indent != 0 && width != 0 ==> GreedyLines(Blank(indent - 1), lines, width)
  {
    if indent == 0 || width == 0 then [text]
    else
      var words := SplitWhitespace(text);
      WordsHaveNoSpace(words);
      WrapWordsGreedy(words, Blank(indent - 1), width);
      if 0 < indent <= width + 1 then
        WrapWordsWithinWidth(words, Blank(indent - 1), width);
        WrapWords(words, Blank(indent - 1), width)
      else
        WrapWords(words, Blank(indent - 1), width)
  }

  lemma WordsHaveNoSpace(words: seq<string>)
    requires forall i :: 0 <= i < |words| ==> NoWhitespace(words[i])
    ensures forall i :: 0 <= i < |words| ==> ' ' !in words[i]
  {
    forall i | 0 <= i < |words| ensures ' ' !in words[i] {
      assert forall k :: 0 <= k < |words[i]| ==> words[i][k] != ' ' by {
        assert IsWhitespace(' ');
      }
    }
  }

  /** The words a wrapped line holds after the indent `tab`. */
  function LineWords(tab: string, line: string): seq<string>
    requires |tab| <= |line|
  {
    SplitOn(line[|tab|..], ' ')[1..]
  }

  /** An indented line is its indent followed by its words, each after one
      space: the words read back from it are all it holds. */
  lemma IndentedLineWords(tab: string, line: string)
    requires IndentedLine(tab, line)
    ensures |tab| <= |line|
    ensures line == tab + Spaced(LineWords(tab, line))
  {
    var body := line[|tab|..];
    assert line == tab + body;
    if body != "" {
      assert body[0] == line[..|tab| + 1][|tab|];
      SpacedPieces(body);
    }
  }

  /** Text opening with a space is its space-separated words, each after
      one space. */
  lemma SpacedPieces(body: string)
    requires |body| >= 1 && body[0] == ' '
    ensures body == Spaced(SplitOn(body, ' ')[1..])
  {
    var pieces := SplitOn(body[1..], ' ');
    assert SplitOn(body, ' ')[1..] == pieces;
    JoinSplitOn(body[1..], ' ');
    SpacedIsJoin(pieces);
    assert ([""] + pieces)[1..] == pieces;
    assert body == [' '] + body[1..];
  }

  /** Every line of a list of indented lines is its indent and its words. */
  lemma LinesAreTheirWords(tab: string, lines: seq<string>)
    requires forall i :: 0 <= i < |lines| ==> IndentedLine(tab, lines[i])
    ensures forall i :: 0 <= i < |lines| ==> |tab| <= |lines[i]|
    ensures forall i :: 0 <= i < |lines| ==> lines[i] == tab + Spaced(LineWords(tab, lines[i]))
  {
    forall i | 0 <= i < |lines|
      ensures |tab| <= |lines[i]| && lines[i] == tab + Spaced(LineWords(tab, lines[i]))
    {
      IndentedLineWords(tab, lines[i]);
    }
  }

  /** The words of all lines, in order. */
  function WordsOf(tab: string, lines: seq<string>): seq<string>
    requires forall i :: 0 <= i < |lines| ==> |tab| <= |lines[i]|
  {
    if |lines| == 0 then [] else LineWords(tab, lines[0]) + WordsOf(tab, lines[1..])
  }

  lemma LineWordsOfSpaced(tab: string, words: seq<string>)
    requires forall i :: 0 <= i < |words| ==> ' ' !in words[i]
    ensures LineWords(tab, tab + Spaced(words)) == words
  {
    SpacedIsJoin(words);
    assert (tab + Spaced(words))[|tab|..] == Spaced(words);
    SplitOnJoin([""] + words, ' ');
  }

  /** Reading the words back from the wrapped lines gives exactly the words
      that went in, in order: wrapping drops, adds and reorders nothing. */
  lemma {:induction false} WrapWordsKeepsWords(words: seq<string>, tab: string, width: int)
    requires forall i :: 0 <= i < |words| ==> ' ' !in words[i]
    ensures var lines := WrapWords(words, tab, width);
      && (forall i :: 0 <= i < |lines| ==> |tab| <= |lines[i]|)
      && WordsOf(tab, lines) == words
    ensures forall i :: 0 <= i < |WrapWords(words, tab, width)| ==>
      WrapWords(words, tab, width)[i] == tab + Spaced(LineWords(tab, WrapWords(words, tab, width)[i]))
    decreases |words|
  {
    var lines := WrapWords(words, tab, width);
    LinesAreTheirWords(tab, lines);
    if |words| == 0 {
    } else if |tab| + |words[0]| + 1 > width {
      var (line, n) := Fill(tab, words[1..], width);
      var rest := words[1..][n..];
      WrapWordsKeepsWords(rest, tab, width);
      OversizedPassKeepsWords(words, tab, line, n, WrapWords(rest, tab, width));
    } else {
      var (line, n) := Fill(tab, words, width);
      WrapWordsKeepsWords(words[n..], tab, width);
      FittingPassKeepsWords(words, tab, line, n, WrapWords(words[n..], tab, width));
    }
  }

  lemma OversizedPassKeepsWords(words: seq<string>, tab: string,
                                line: string, n: nat, tail: seq<string>)
    requires forall i :: 0 <= i < |words| ==> ' ' !in words[i]
    requires |words| > 0
    requires n <= |words| - 1 && line == tab + Spaced(words[1..][..n])
    requires forall i :: 0 <= i < |tail| ==> |tab| <= |tail[i]|
    requires WordsOf(tab, tail) == words[1..][n..]
    ensures WordsOf(tab, [tab + " " + words[0]] + ([line] + tail)) == words
  {
    var first := tab + " " + words[0];
    assert LineWords(tab, first) == [words[0]] by {
      assert Spaced([words[0]]) == " " + words[0] + Spaced([]);
      assert first == tab + Spaced([words[0]]);
      LineWordsOfSpaced(tab, [words[0]]);
    }
    var rest := words[1..];
    assert LineWords(tab, line) == rest[..n] by {
      assert forall i :: 0 <= i < |rest[..n]| ==> ' ' !in rest[..n][i];
      LineWordsOfSpaced(tab, rest[..n]);
    }
    WordsOfCons(tab, line, tail);
    assert WordsOf(tab, [line] + tail) == rest[..n] + rest[n..];
    assert rest[..n] + rest[n..] == rest;
    WordsOfCons(tab, first, [line] + tail);
    assert words == [words[0]] + rest;
  }

  lemma FittingPassKeepsWords(words: seq<string>, tab: string,
                              line: string, n: nat, tail: seq<string>)
    requires forall i :: 0 <= i < |words| ==> ' ' !in words[i]
    requires n <= |words| && line == tab + Spaced(words[..n])
    requires forall i :: 0 <= i < |tail| ==> |tab| <= |tail[i]|
    requires WordsOf(tab, tail) == words[n..]
    ensures WordsOf(tab, [line] + tail) == words
  {
    LineWordsOfSpaced(tab, words[..n]);
    WordsOfCons(tab, line, tail);
    assert words == words[..n] + words[n..];
  }

  lemma WordsOfCons(tab: string, line: string, lines: seq<string>)
    requires |tab| <= |line|
    requires forall i :: 0 <= i < |lines| ==> |tab| <= |lines[i]|
    ensures WordsOf(tab, [line] + lines) == LineWords(tab, line) + WordsOf(tab, lines)
  {
    assert ([line] + lines)[1..] == lines;
  }

  /** The words of the wrapped text are the whitespace-separated tokens of the
      input, and joining them with single spaces gives the input with its
      whitespace runs collapsed. */
  lemma WrapTextKeepsWords(text: string, indent: int, width: int)
    requires indent != 0 && width != 0
    ensures var lines := WrapText(text, indent, width);
      && (forall i :: 0 <= i < |lines| ==> |Blank(indent - 1)| <= |lines[i]|)
      && WordsOf(Blank(indent - 1), lines) == SplitWhitespace(text)
      && Join(WordsOf(Blank(indent - 1), lines), " ") == CollapseWhitespace(text)
    ensures forall i :: 0 <= i < |WrapText(text, indent, width)| ==>
      WrapText(text, indent, width)[i]
        == Blank(indent - 1) + Spaced(LineWords(Blank(indent - 1), WrapText(text, indent, width)[i]))
  {
    LinesAreTheirWords(Blank(indent - 1), WrapText(text, indent, width));
    var words := SplitWhitespace(text);
    WordsHaveNoSpace(words);
    WrapWordsKeepsWords(words, Blank(indent - 1), width);
    CollapseIsJoinedTokens(text);
  }

  /** A single word too long for the line comes out on a line of its own,
      followed by a line that holds only the indent. */
  lemma OversizedWordLeavesIndentLine(word: string, indent: int, width: int)
    requires |word| > 0 && NoWhitespace(word)
    requires indent > 0 && width != 0
    requires indent + |word| > width
    ensures WrapText(word, indent, width) == [Blank(indent - 1) + " " + word, Blank(indent - 1)]
  {
    assert SplitWhitespace(word) == [word] by { SplitSingleWord(word); }
    var tab := Blank(indent - 1);
    assert Fill(tab, [], width) == (tab, 0);
  }

  /** A word that fits, after an oversized one, goes on the line that
      follows the oversized word: no indent-only line is left between. */
  lemma OversizedWordThenWord(big: string, word: string, tab: string, width: int)
    requires |tab| + |big| + 1 > width
    requires |tab| + |word| + 1 <= width
    ensures WrapWords([big, word], tab, width) == [tab + " " + big, tab + " " + word]
  {
    var words := [big, word];
    assert words[1..] == [word];
    assert Fill(tab + " " + word, [], width) == (tab + " " + word, 0);
    assert Fill(tab, [word], width) == (tab + " " + word, 1) by {
      assert [word][1..] == [];
    }
    assert words[1..][1..] == [];
  }

  lemma {:induction false} SplitSingleWord(word: string)
    requires NoWhitespace(word)
    ensures SplitWhitespace(word) == [word]
  {
    if |word| > 0 {
      SplitSingleWord(word[1..]);
      assert word == [word[0]] + word[1..];
    }
  }
}

=== FILE: markdown.dfy ===
/**
 The Markdown block lexer of draftr (`fromMD`). The first line of the input is
 the divider; every later line that starts with it opens a new top-level
 section. The first section is the metadata block, a section whose opening
 line mentions `abstract` after the divider gives the abstract, and one that
 mentions `middle` gives the body blocks. Any other section is skipped.
 */
module Markdown {
  import opened Strings

  /** A body block: a heading with its level, or a paragraph. */
  datatype Block = Section(level: nat, title: string) | Text(content: string)

  /** What the lexer extracts from the document text: the raw metadata text
      (handed to the metadata parser), the abstract and the body blocks. */
  datatype Lexed = Lexed(metaText: string, abstractText: string, blocks: seq<Block>)

  /** `/^\s*$/`: the line is empty or whitespace only. */
  predicate IsBlankLine(line: string) {
    AllWhitespace(line)
  }

  /** The number of '#' characters the line starts with. */
  function HashRun(line: string): (n: nat)
    ensures n <= |line|
    ensures AllChar(line[..n], '#')
    ensures n < |line| ==> line[n] != '#'
  {
    if |line| > 0 && line[0] == '#' then 1 + HashRun(line[1..]) else 0
  }

  /** `/^#+ /`: one or more '#' and then a space. */
  predicate IsAtxHeading(line: string) {
    var n := HashRun(line);
    1 <= n < |line| && line[n] == ' '
  }

  /** `/^=+$/` and `/^-+$/`: a non-empty line of one repeated character. */
  predicate IsUnderline(line: string, c: char) {
    |line| >= 1 && AllChar(line, c)
  }

  /** Classifies one run of non-blank lines: a one-line ATX heading, a
      two-line Setext heading (level 1 for '=', level 2 for '-'), or else a
      paragraph whose lines are joined by spaces with every whitespace run
      collapsed to one space, not trimmed. */
  function Classify(group: seq<string>): (b: Block)
    requires |group| >= 1
    ensures b.Section? <==>
      || (|group| == 1 && IsAtxHeading(group[0]))
      || (|group| == 2 && (IsUnderline(group[1], '=') || IsUnderline(group[1], '-')))
    ensures b.Section? ==> b.level >= 1
    ensures b.Section? && |group| == 1 ==> b.level == HashRun(group[0]) && b.title == TrimLeadingSpaces(group[0][b.level..])
    ensures b.Section? && |group| == 2 ==> b.title == group[0] && b.level == (if IsUnderline(group[1], '=') then 1 else 2)
    ensures b.Text? ==> b.content == Join(SplitWhitespace(Join(group, " ")), " ")
    ensures b.Text? ==> Without(b.content, IsWhitespace) == Without(Join(group, " "), IsWhitespace)
  {
    if |group| == 1 && IsAtxHeading(group[0]) then
      var level := HashRun(group[0]);
      Section(level, TrimLeadingSpaces(group[0][level..]))
    else if |group| == 2 && IsUnderline(group[1], '=') then
      Section(1, group[0])
    else if |group| == 2 && IsUnderline(group[1], '-') then
      Section(2, group[0])
    else
      CollapseIsJoinedTokens(Join(group, " "));
      Text(CollapseWhitespace(Join(group, " ")))
  }

  /** Writing `level` hashes, one or more spaces and a title gives back that
      heading. */
  lemma AtxHeadingRoundTrip(level: nat, gap: nat, title: string)
    requires level >= 1 && gap >= 1
    requires |title| == 0 || title[0] != ' '
    ensures Classify([Repeat('#', level) + Repeat(' ', gap) + title]) == Section(level, title)
  {
    var spaced := Repeat(' ', gap) + title;
    var line := Repeat('#', level) + spaced;
    assert line == Repeat('#', level) + Repeat(' ', gap) + title;
    HashRunOf(Repeat('#', level), spaced);
    assert line[level..] == spaced;
    assert line[level] == ' ';
    assert IsAtxHeading(line);
    TrimSpacesBefore(Repeat(' ', gap), title);
    assert TrimLeadingSpaces(line[level..]) == title;
  }

  /** Conversely, every one-line heading is hashes, spaces and its title. */
  lemma AtxHeadingShape(line: string)
    requires IsAtxHeading(line)
    ensures var b := Classify([line]);
      && b.Section?
      && |line| - b.level - |b.title| >= 1
      && line == Repeat('#', b.level) + Repeat(' ', |line| - b.level - |b.title|) + b.title
      && (|b.title| == 0 || b.title[0] != ' ')
  {
    var n := HashRun(line);
    var t := TrimLeadingSpaces(line[n..]);
    assert line[n] == ' ';
    assert |line[n..]| - |t| >= 1;
    assert line[..n] == Repeat('#', n);
    assert line[n..][..|line[n..]| - |t|] == Repeat(' ', |line| - n - |t|);
    assert line == line[..n] + line[n..][..|line[n..]| - |t|] + t;
  }

  lemma {:induction false} HashRunOf(hashes: string, rest: string)
    requires AllChar(hashes, '#')
    requires |rest| == 0 || rest[0] != '#'
    ensures HashRun(hashes + rest) == |hashes|
  {
    if |hashes| == 0 {
      assert hashes + rest == rest;
    } else {
      assert (hashes + rest)[0] == '#';
      assert (hashes + rest)[1..] == hashes[1..] + rest;
      HashRunOf(hashes[1..], rest);
    }
  }

  lemma TrimSpacesBefore(spaces: string, title: string)
    requires AllChar(spaces, ' ')
    requires |title| == 0 || title[0] != ' '
    ensures TrimLeadingSpaces(spaces + title) == title
  {
    var line := spaces + title;
    forall j | 0 <= j < |spaces| ensures line[j] == ' ' {
      assert line[j] == spaces[j];
    }
    assert |spaces| < |line| ==> line[|spaces|] == title[0];
    SpacesEndAt(line, 0, |spaces|);
    assert line[|spaces|..] == title;
  }

  /** A two-line group is a heading exactly when its second line is an
      underline of '=' (level 1) or of '-' (level 2); the title is the first
      line as written. */
  lemma SetextHeading(first: string, second: string)
    ensures Classify([first, second]).Section? <==> IsUnderline(second, '=') || IsUnderline(second, '-')
    ensures IsUnderline(second, '=') ==> Classify([first, second]) == Section(1, first)
    ensures !IsUnderline(second, '=') && IsUnderline(second, '-') ==> Classify([first, second]) == Section(2, first)
  {
  }

  /** The lexer loop over the lines of a body section: non-blank lines
      collect in `pending`; a blank line emits the pending run (if any) as
      one block. A run still pending when the lines end is not emitted. */
  function LexBody(lines: seq<string>, pending: seq<string>): (bs: seq<Block>)
    ensures 2 * |bs| <= |lines| + (if |pending| > 0 then 1 else 0)
    decreases |lines|
  {
    if |lines| == 0 then []
    else if !IsBlankLine(lines[0]) then LexBody(lines[1..], pending + [lines[0]])
    else if |pending| == 0 then LexBody(lines[1..], [])
    else [Classify(pending)] + LexBody(lines[1..], [])
  }

  /** The index of the first blank line, or the number of lines. */
  function FirstBlank(lines: seq<string>): (k: nat)
    ensures k <= |lines|
    ensures forall i :: 0 <= i < k ==> !IsBlankLine(lines[i])
    ensures k < |lines| ==> IsBlankLine(lines[k])
  {
    if |lines| == 0 || IsBlankLine(lines[0]) then 0 else 1 + FirstBlank(lines[1..])
  }

  /** The maximal runs of non-blank lines that are followed by a blank line,
      in order. */
  function TerminatedRuns(lines: seq<string>): (runs: seq<seq<string>>)
    ensures forall i :: 0 <= i < |runs| ==> |runs[i]| >= 1
    decreases |lines|
  {
    var k := FirstBlank(lines);
    if k == |lines| then []
    else if k == 0 then TerminatedRuns(lines[1..])
    else [lines[..k]] + TerminatedRuns(lines[k + 1..])
  }

  function ClassifyAll(runs: seq<seq<string>>): (bs: seq<Block>)
    requires forall i :: 0 <= i < |runs| ==> |runs[i]| >= 1
    ensures |bs| == |runs|
    ensures forall i :: 0 <= i < |runs| ==> bs[i] == Classify(runs[i])
  {
    if |runs| == 0 then [] else [Classify(runs[0])] + ClassifyAll(runs[1..])
  }

  /** The body blocks are exactly the classified blank-terminated runs of
      non-blank lines, one block per run and in source order. */
  lemma {:induction false} LexBodyIsClassifiedRuns(lines: seq<string>)
    ensures LexBody(lines, []) == ClassifyAll(TerminatedRuns(lines))
    decreases |lines|
  {
    var k := FirstBlank(lines);
    LexBodyPending(lines, []);
    if k == |lines| {
    } else if k == 0 {
      LexBodyIsClassifiedRuns(lines[1..]);
    } else {
      var run := lines[..k];
      var later := TerminatedRuns(lines[k + 1..]);
      LexBodyIsClassifiedRuns(lines[k + 1..]);
      assert [] + run == run;
      assert TerminatedRuns(lines) == [run] + later;
      ClassifyAllCons(run, later);
    }
  }

  lemma ClassifyAllCons(run: seq<string>, runs: seq<seq<string>>)
    requires |run| >= 1 && forall i :: 0 <= i < |runs| ==> |runs[i]| >= 1
    ensures ClassifyAll([run] + runs) == [Classify(run)] + ClassifyAll(runs)
  {
    assert ([run] + runs)[1..] == runs;
  }

  /** How LexBody consumes the lines up to the first blank one. */
  lemma {:induction false} LexBodyPending(lines: seq<string>, pending: seq<string>)
    ensures var k := FirstBlank(lines);
      LexBody(lines, pending) ==
        if k == |lines| then []
        else if |pending| + k == 0 then LexBody(lines[k + 1..], [])
        else [Classify(pending + lines[..k])] + LexBody(lines[k + 1..], [])
    decreases |lines|
  {
    var k := FirstBlank(lines);
    if k == |lines| {
      UnterminatedRunEmitsNothing(lines, pending);
    } else {
      LexBodyConsumes(lines, pending, k);
      assert lines[k..][1..] == lines[k + 1..];
    }
  }

  /** Non-blank lines are only gathered into the pending run. */
  lemma {:induction false} LexBodyConsumes(lines: seq<string>, pending: seq<string>, k: nat)
    requires k <= |lines|
    requires forall i :: 0 <= i < k ==> !IsBlankLine(lines[i])
    ensures LexBody(lines, pending) == LexBody(lines[k..], pending + lines[..k])
    decreases k
  {
    if k == 0 {
      assert lines[0..] == lines;
      assert pending + lines[..0] == pending;
    } else {
      var rest := lines[1..];
      assert !IsBlankLine(lines[0]);
      LexBodyGathers(lines, pending);
      assert forall i :: 0 <= i < k - 1 ==> !IsBlankLine(rest[i]) by {
        assert forall i :: 0 <= i < k - 1 ==> rest[i] == lines[i + 1];
      }
      LexBodyConsumes(rest, pending + [lines[0]], k - 1);
      GatheredSlices(lines, pending, k);
    }
  }

  /** The slices after gathering one line and then `k - 1` more. */
  lemma GatheredSlices(lines: seq<string>, pending: seq<string>, k: nat)
    requires 1 <= k <= |lines|
    ensures lines[1..][k - 1..] == lines[k..]
    ensures (pending + [lines[0]]) + lines[1..][..k - 1] == pending + lines[..k]
  {
    assert lines[..k] == [lines[0]] + lines[1..][..k - 1];
  }

  /** A non-blank line joins the pending run. */
  lemma LexBodyGathers(lines: seq<string>, pending: seq<string>)
    requires |lines| >= 1 && !IsBlankLine(lines[0])
    ensures LexBody(lines, pending) == LexBody(lines[1..], pending + [lines[0]])
  {
  }

  /** Lines without a blank line among them emit nothing. */
  lemma {:induction false} UnterminatedRunEmitsNothing(tail: seq<string>, pending: seq<string>)
    requires forall i :: 0 <= i < |tail| ==> !IsBlankLine(tail[i])
    ensures LexBody(tail, pending) == []
    decreases |tail|
  {
    if |tail| > 0 {
      UnterminatedRunEmitsNothing(tail[1..], pending + [tail[0]]);
    }
  }

  /** A final run of non-blank lines with no blank line after it is dropped:
      appending it to a body that ends with a blank line changes nothing. */
  lemma {:induction false} FinalRunDropped(lines: seq<string>, tail: seq<string>, pending: seq<string>)
    requires |lines| >= 1 && IsBlankLine(lines[|lines| - 1])
    requires forall i :: 0 <= i < |tail| ==> !IsBlankLine(tail[i])
    ensures LexBody(lines + tail, pending) == LexBody(lines, pending)
    decreases |lines|
  {
    assert (lines + tail)[0] == lines[0];
    assert (lines + tail)[1..] == lines[1..] + tail;
    if |lines| == 1 {
      UnterminatedRunEmitsNothing(tail, []);
      assert lines[1..] + tail == tail;
    } else if !IsBlankLine(lines[0]) {
      FinalRunDropped(lines[1..], tail, pending + [lines[0]]);
    } else {
      FinalRunDropped(lines[1..], tail, []);
    }
  }

  /** The first run of spaces becomes one space; later runs stay as they are
      (the replacement in draftr has no `g` flag). */
  function CollapseFirstSpaceRun(s: string): (r: string)
    ensures ' ' !in s ==> r == s
  {
    if |s| == 0 then ""
    else if s[0] == ' ' then " " + TrimLeadingSpaces(s)
    else [s[0]] + CollapseFirstSpaceRun(s[1..])
  }

  /** Text up to the first space, one run of spaces, and the rest: only that
      first run is collapsed. */
  lemma {:induction false} CollapseFirstRunShape(before: string, spaces: string, after: string)
    requires forall k :: 0 <= k < |before| ==> before[k] != ' '
    requires |spaces| >= 1 && AllChar(spaces, ' ')
    requires |after| == 0 || after[0] != ' '
    ensures CollapseFirstSpaceRun(before + spaces + after) == before + " " + after
  {
    if |before| == 0 {
      assert before + spaces + after == spaces + after;
      TrimSpacesBefore(spaces, after);
    } else {
      var s := before + spaces + after;
      assert s[0] == before[0];
      assert s[1..] == before[1..] + spaces + after;
      CollapseFirstRunShape(before[1..], spaces, after);
      assert before + " " + after == [before[0]] + (before[1..] + " " + after);
    }
  }

  /** Collapsing the first run of spaces drops only spaces. */
  lemma {:induction false} CollapseFirstRunKeepsText(s: string)
    ensures Without(CollapseFirstSpaceRun(s), IsSpace) == Without(s, IsSpace)
  {
    if |s| == 0 {
    } else if s[0] == ' ' {
      var t := TrimLeadingSpaces(s);
      WithoutAppend(" ", t, IsSpace);
      TrimLeadingKeepsText(s);
    } else {
      CollapseFirstRunKeepsText(s[1..]);
      WithoutAppend([s[0]], CollapseFirstSpaceRun(s[1..]), IsSpace);
    }
  }

  /** The abstract: the section's lines joined by spaces, the first run of
      spaces collapsed, and leading and trailing spaces removed. Apart from
      spaces it holds exactly the characters of the lines, in order. */
  function AbstractText(lines: seq<string>): (r: string)
    ensures |r| == 0 || (r[0] != ' ' && r[|r| - 1] != ' ')
    ensures Without(r, IsSpace) == Without(Join(lines, " "), IsSpace)
  {
    var joined := Join(lines, " ");
    var collapsed := CollapseFirstSpaceRun(joined);
    CollapseFirstRunKeepsText(joined);
    TrimLeadingKeepsText(collapsed);
    TrimTrailingKeepsText(TrimLeadingSpaces(collapsed));
    TrimTrailingSpaces(TrimLeadingSpaces(collapsed))
  }

  /** Joined lines made of a space-free head, one run of spaces and a rest
      that does not start with a space give the head, one space and the rest,
      trimmed: only the first run of spaces is collapsed. */
  lemma AbstractTextShape(lines: seq<string>, before: string, spaces: string, after: string)
    requires Join(lines, " ") == before + spaces + after
    requires forall k :: 0 <= k < |before| ==> before[k] != ' '
    requires |spaces| >= 1 && AllChar(spaces, ' ')
    requires |after| == 0 || after[0] != ' '
    ensures AbstractText(lines) == TrimTrailingSpaces(TrimLeadingSpaces(before + " " + after))
  {
    CollapseFirstRunShape(before, spaces, after);
  }

  /** A line opens a section when `line.indexOf(divider) == 0`, that is,
      exactly when it starts with the divider. */
  predicate IsDivider(line: string, divider: string) {
    IndexOf(line, divider, 0) == 0
  }

  lemma DividerIffPrefix(line: string, divider: string)
    ensures IsDivider(line, divider) <==> StartsWith(line, divider)
  {
    if StartsWith(line, divider) {
      assert OccursAt(line, divider, 0);
    }
  }

  /** The first line at or after `k` that starts with the divider, or the
      number of lines. */
  function NextDivider(lines: seq<string>, divider: string, k: nat): (r: nat)
    requires k <= |lines|
    ensures k <= r <= |lines|
    ensures r < |lines| ==> IsDivider(lines[r], divider)
    ensures forall j :: k <= j < r ==> !IsDivider(lines[j], divider)
    decreases |lines| - k
  {
    if k == |lines| || IsDivider(lines[k], divider) then k
    else NextDivider(lines, divider, k + 1)
  }

  /** The marker test on a section's opening line: `marker` occurs at or
      after the divider's length. */
  predicate HasMarker(line: string, divider: string, marker: string) {
    IndexOf(line, marker, |divider|) > -1
  }

  /** The loop over the top-level sections after the metadata block. An
      abstract section replaces the abstract (the `abstract` test comes
      first); a middle section appends its blocks; anything else is skipped. */
  function LexSections(lines: seq<string>, divider: string, start: nat,
                       abstractText: string, blocks: seq<Block>): (r: (string, seq<Block>))
    requires start <= |lines|
    ensures |blocks| <= |r.1| && r.1[..|blocks|] == blocks
    decreases |lines| - start
  {
    if start == |lines| then (abstractText, blocks)
    else
      var end := NextDivider(lines, divider, start + 1);
      var body := lines[start + 1..end];
      if HasMarker(lines[start], divider, "abstract") then
        LexSections(lines, divider, end, AbstractText(body), blocks)
      else if HasMarker(lines[start], divider, "middle") then
        var more := blocks + LexBody(body, []);
        var r := LexSections(lines, divider, end, abstractText, more);
        assert r.1[..|blocks|] == r.1[..|more|][..|blocks|] == more[..|blocks|] == blocks;
        r
      else
        LexSections(lines, divider, end, abstractText, blocks)
  }

  /** Without an abstract marker from `start` on the abstract stays as it
      is, and without a middle marker no block is added. */
  lemma {:induction false} SectionsWithoutMarker(lines: seq<string>, divider: string, start: nat,
                                                 abstractText: string, blocks: seq<Block>)
    requires start <= |lines|
    ensures var r := LexSections(lines, divider, start, abstractText, blocks);
      && ((forall j :: start <= j < |lines| ==> !HasMarker(lines[j], divider, "abstract")) ==> r.0 == abstractText)
      && ((forall j :: start <= j < |lines| ==> !HasMarker(lines[j], divider, "middle")) ==> r.1 == blocks)
    decreases |lines| - start
  {
    if start < |lines| {
      var end := NextDivider(lines, divider, start + 1);
      var body := lines[start + 1..end];
      if HasMarker(lines[start], divider, "abstract") {
        SectionsWithoutMarker(lines, divider, end, AbstractText(body), blocks);
      } else if HasMarker(lines[start], divider, "middle") {
        SectionsWithoutMarker(lines, divider, end, abstractText, blocks + LexBody(body, []));
      } else {
        SectionsWithoutMarker(lines, divider, end, abstractText, blocks);
      }
    }
  }

  /** The lexer of `fromMD`, short of the metadata parse: the text is split
      into lines, the first line is the divider, the metadata text is the
      lines before the next divider line, then the sections are lexed. */
  function Lex(text: string): (r: Lexed)
    ensures var lines := SplitOn(text, '\n');
      (forall j :: 1 <= j < |lines| ==> !IsDivider(lines[j], lines[0])) ==>
        r == Lexed(Join(lines[1..], "\n"), "", [])
    ensures var lines := SplitOn(text, '\n');
      (forall j :: 1 <= j < |lines| ==> !HasMarker(lines[j], lines[0], "abstract")) ==> r.abstractText == ""
    ensures var lines := SplitOn(text, '\n');
      (forall j :: 1 <= j < |lines| ==> !HasMarker(lines[j], lines[0], "middle")) ==> r.blocks == []
  {
    var lines := SplitOn(text, '\n');
    var divider := lines[0];
    var metaEnd := NextDivider(lines, divider, 1);
    var (abstractText, blocks) := LexSections(lines, divider, metaEnd, "", []);
    SectionsWithoutMarker(lines, divider, metaEnd, "", []);
    assert metaEnd == |lines| ==> lines[1..metaEnd] == lines[1..];
    Lexed(Join(lines[1..metaEnd], "\n"), abstractText, blocks)
  }

  /** A section whose opening line has no marker leaves everything as it is. */
  lemma SkippedSection(lines: seq<string>, divider: string, start: nat, abstractText: string, blocks: seq<Block>)
    requires start < |lines|
    requires !HasMarker(lines[start], divider, "abstract") && !HasMarker(lines[start], divider, "middle")
    ensures LexSections(lines, divider, start, abstractText, blocks)
         == LexSections(lines, divider, NextDivider(lines, divider, start + 1), abstractText, blocks)
  {
  }

  /** NextDivider finds a divider line after a stretch without one. */
  lemma NextDividerAt(lines: seq<string>, divider: string, k: nat, m: nat)
    requires k <= m <= |lines|
    requires forall j :: k <= j < m ==> !IsDivider(lines[j], divider)
    requires m == |lines| || IsDivider(lines[m], divider)
    ensures NextDivider(lines, divider, k) == m
  {
  }

  /** No line of a stretch that does not start with the divider opens a section. */
  lemma NoDividerIn(lines: seq<string>, divider: string, lo: nat, part: seq<string>)
    requires lo + |part| <= |lines| && lines[lo..lo + |part|] == part
    requires forall i :: 0 <= i < |part| ==> !StartsWith(part[i], divider)
    ensures forall j :: lo <= j < lo + |part| ==> !IsDivider(lines[j], divider)
  {
    forall j | lo <= j < lo + |part| ensures !IsDivider(lines[j], divider) {
      assert lines[j] == part[j - lo];
      DividerIffPrefix(lines[j], divider);
    }
  }

  lemma AbstractSectionStep(lines: seq<string>, divider: string, start: nat, abstractText: string, blocks: seq<Block>)
    requires start < |lines| && HasMarker(lines[start], divider, "abstract")
    ensures var end := NextDivider(lines, divider, start + 1);
      LexSections(lines, divider, start, abstractText, blocks)
        == LexSections(lines, divider, end, AbstractText(lines[start + 1..end]), blocks)
  {
  }

  lemma MiddleSectionStep(lines: seq<string>, divider: string, start: nat, abstractText: string, blocks: seq<Block>)
    requires start < |lines| && HasMarker(lines[start], divider, "middle")
    requires !HasMarker(lines[start], divider, "abstract")
    ensures var end := NextDivider(lines, divider, start + 1);
      LexSections(lines, divider, start, abstractText, blocks)
        == LexSections(lines, divider, end, abstractText, blocks + LexBody(lines[start + 1..end], []))
  {
  }

  /** An abstract section running up to line `m`. */
  lemma AbstractSectionUpTo(lines: seq<string>, divider: string, a: nat, m: nat)
    requires a < m < |lines|
    requires HasMarker(lines[a], divider, "abstract")
    requires forall j :: a < j < m ==> !IsDivider(lines[j], divider)
    requires IsDivider(lines[m], divider)
    ensures LexSections(lines, divider, a, "", [])
         == LexSections(lines, divider, m, AbstractText(lines[a + 1..m]), [])
  {
    NextDividerAt(lines, divider, a + 1, m);
    AbstractSectionStep(lines, divider, a, "", []);
  }

  /** A middle section that runs to the end of the document. */
  lemma FinalMiddleSection(lines: seq<string>, divider: string, m: nat, abstractText: string)
    requires m < |lines|
    requires HasMarker(lines[m], divider, "middle") && !HasMarker(lines[m], divider, "abstract")
    requires forall j :: m < j < |lines| ==> !IsDivider(lines[j], divider)
    ensures LexSections(lines, divider, m, abstractText, [])
         == (abstractText, LexBody(lines[m + 1..], []))
  {
    NextDividerAt(lines, divider, m + 1, |lines|);
    MiddleSectionStep(lines, divider, m, abstractText, []);
    assert lines[m + 1..|lines|] == lines[m + 1..];
    assert [] + LexBody(lines[m + 1..], []) == LexBody(lines[m + 1..], []);
  }

  /** A document assembled from a divider line, metadata lines, an abstract
      section and a middle section lexes back into its parts: the metadata
      text, the abstract and the body blocks. */
  lemma LexAssembledDocument(divider: string, meta: seq<string>,
                             abstractLine: string, abstractBody: seq<string>,
                             middleLine: string, body: seq<string>)
    requires StartsWith(abstractLine, divider) && HasMarker(abstractLine, divider, "abstract")
    requires StartsWith(middleLine, divider) && HasMarker(middleLine, divider, "middle")
    requires !HasMarker(middleLine, divider, "abstract")
    requires forall i :: 0 <= i < |meta| ==> !StartsWith(meta[i], divider)
    requires forall i :: 0 <= i < |abstractBody| ==> !StartsWith(abstractBody[i], divider)
    requires forall i :: 0 <= i < |body| ==> !StartsWith(body[i], divider)
    requires var all := [divider] + meta + [abstractLine] + abstractBody + [middleLine] + body;
      forall i :: 0 <= i < |all| ==> '\n' !in all[i]
    ensures var doc := [divider] + meta + [abstractLine] + abstractBody + [middleLine] + body;
      Lex(Join(doc, "\n")) == Lexed(Join(meta, "\n"), AbstractText(abstractBody), LexBody(body, []))
  {
    var doc := [divider] + meta + [abstractLine] + abstractBody + [middleLine] + body;
    SplitOnJoin(doc, '\n');
    LexOfAssembledLines(Join(doc, "\n"), doc, divider, meta, abstractLine, abstractBody, middleLine, body);
  }

  lemma LexOfAssembledLines(text: string, lines: seq<string>, divider: string, meta: seq<string>,
                            abstractLine: string, abstractBody: seq<string>,
                            middleLine: string, body: seq<string>)
    requires SplitOn(text, '\n') == lines
    requires lines == [divider] + meta + [abstractLine] + abstractBody + [middleLine] + body
    requires StartsWith(abstractLine, divider) && HasMarker(abstractLine, divider, "abstract")
    requires StartsWith(middleLine, divider) && HasMarker(middleLine, divider, "middle")
    requires !HasMarker(middleLine, divider, "abstract")
    requires forall i :: 0 <= i < |meta| ==> !StartsWith(meta[i], divider)
    requires forall i :: 0 <= i < |abstractBody| ==> !StartsWith(abstractBody[i], divider)
    requires forall i :: 0 <= i < |body| ==> !StartsWith(body[i], divider)
    ensures Lex(text) == Lexed(Join(meta, "\n"), AbstractText(abstractBody), LexBody(body, []))
  {
    var a := 1 + |meta|;
    var m := a + 1 + |abstractBody|;
    AssembledLines(lines, divider, meta, abstractLine, abstractBody, middleLine, body);
    AssembledDividers(lines, divider, meta, abstractLine, abstractBody, middleLine, body);
    AssembledSections(lines, divider, a, m, abstractBody, body);
    LexOfLines(text, lines, divider, a, meta, AbstractText(abstractBody), LexBody(body, []));
  }

  /** Lex in terms of the lines of the text: where the metadata ends and
      what the sections after it give. */
  lemma LexOfLines(text: string, lines: seq<string>, divider: string, a: nat, meta: seq<string>,
                    abstractText: string, blocks: seq<Block>)
    requires lines == SplitOn(text, '\n') && divider == lines[0]
    requires 1 <= a <= |lines| && lines[1..a] == meta
    requires NextDivider(lines, divider, 1) == a
    requires LexSections(lines, divider, a, "", []) == (abstractText, blocks)
    ensures Lex(text) == Lexed(Join(meta, "\n"), abstractText, blocks)
  {
  }

  /** Where the parts of an assembled document sit among its lines. */
  lemma AssembledLines(lines: seq<string>, divider: string, meta: seq<string>,
                       abstractLine: string, abstractBody: seq<string>,
                       middleLine: string, body: seq<string>)
    requires lines == [divider] + meta + [abstractLine] + abstractBody + [middleLine] + body
    ensures var a := 1 + |meta|; var m := a + 1 + |abstractBody|;
      && m < |lines|
      && lines[0] == divider && lines[a] == abstractLine && lines[m] == middleLine
      && lines[1..a] == meta && lines[a + 1..m] == abstractBody && lines[m + 1..] == body
  {
    var a := 1 + |meta|;
    var m := a + 1 + |abstractBody|;
    assert lines[1..a] == meta;
    assert lines[a + 1..m] == abstractBody;
    assert lines[m + 1..] == body;
  }

  /** In an assembled document the two section lines are the only dividers
      after the first line. */
  lemma AssembledDividers(lines: seq<string>, divider: string, meta: seq<string>,
                          abstractLine: string, abstractBody: seq<string>,
                          middleLine: string, body: seq<string>)
    requires lines == [divider] + meta + [abstractLine] + abstractBody + [middleLine] + body
    requires StartsWith(abstractLine, divider) && StartsWith(middleLine, divider)
    requires forall i :: 0 <= i < |meta| ==> !StartsWith(meta[i], divider)
    requires forall i :: 0 <= i < |abstractBody| ==> !StartsWith(abstractBody[i], divider)
    requires forall i :: 0 <= i < |body| ==> !StartsWith(body[i], divider)
    ensures var a := 1 + |meta|; var m := a + 1 + |abstractBody|;
      && m < |lines|
      && (forall j :: 1 <= j < a ==> !IsDivider(lines[j], divider))
      && IsDivider(lines[a], divider)
      && (forall j :: a < j < m ==> !IsDivider(lines[j], divider))
      && IsDivider(lines[m], divider)
      && (forall j :: m < j < |lines| ==> !IsDivider(lines[j], divider))
  {
    var a := 1 + |meta|;
    var m := a + 1 + |abstractBody|;
    AssembledLines(lines, divider, meta, abstractLine, abstractBody, middleLine, body);
    NoDividerIn(lines, divider, 1, meta);
    NoDividerIn(lines, divider, a + 1, abstractBody);
    NoDividerIn(lines, divider, m + 1, body);
    DividerIffPrefix(abstractLine, divider);
    DividerIffPrefix(middleLine, divider);
  }

  /** Lines with a divider at `a` opening the abstract, a divider at `m`
      opening the middle, and no other divider after the first line: the
      metadata ends at `a`, and the sections give the abstract of the lines
      between and the blocks of the lines after `m`. */
  lemma AssembledSections(lines: seq<string>, divider: string, a: nat, m: nat,
                          abstractBody: seq<string>, body: seq<string>)
    requires 1 <= a < m < |lines|
    requires forall j :: 1 <= j < a ==> !IsDivider(lines[j], divider)
    requires IsDivider(lines[a], divider) && HasMarker(lines[a], divider, "abstract")
    requires forall j :: a < j < m ==> !IsDivider(lines[j], divider)
    requires IsDivider(lines[m], divider)
    requires HasMarker(lines[m], divider, "middle") && !HasMarker(lines[m], divider, "abstract")
    requires forall j :: m < j < |lines| ==> !IsDivider(lines[j], divider)
    requires lines[a + 1..m] == abstractBody && lines[m + 1..] == body
    ensures NextDivider(lines, divider, 1) == a
    ensures LexSections(lines, divider, a, "", [])
         == (AbstractText(abstractBody), LexBody(body, []))
  {
    NextDividerAt(lines, divider, 1, a);
    SectionsFromAbstract(lines, divider, a, m, abstractBody, body);
  }

  /** From an abstract section at `a` followed by a final middle section at `m`. */
  lemma SectionsFromAbstract(lines: seq<string>, divider: string, a: nat, m: nat,
                             abstractBody: seq<string>, body: seq<string>)
    requires a < m < |lines|
    requires HasMarker(lines[a], divider, "abstract")
    requires forall j :: a < j < m ==> !IsDivider(lines[j], divider)
    requires IsDivider(lines[m], divider)
    requires HasMarker(lines[m], divider, "middle") && !HasMarker(lines[m], divider, "abstract")
    requires forall j :: m < j < |lines| ==> !IsDivider(lines[j], divider)
    requires lines[a + 1..m] == abstractBody && lines[m + 1..] == body
    ensures LexSections(lines, divider, a, "", [])
         == (AbstractText(abstractBody), LexBody(body, []))
  {
    AbstractSectionUpTo(lines, divider, a, m);
    FinalMiddleSection(lines, divider, m, AbstractText(abstractBody));
  }

  /** An unmarked section at `o`, running up to the abstract section at `a`,
      leaves the sections' result as it would be without it. */
  lemma SectionsAfterSkipped(lines: seq<string>, divider: string, o: nat, a: nat, m: nat,
                             abstractBody: seq<string>, body: seq<string>)
    requires 1 <= o < a < m < |lines|
    requires forall j :: 1 <= j < o ==> !IsDivider(lines[j], divider)
    requires IsDivider(lines[o], divider)
    requires !HasMarker(lines[o], divider, "abstract") && !HasMarker(lines[o], divider, "middle")
    requires forall j :: o < j < a ==> !IsDivider(lines[j], divider)
    requires IsDivider(lines[a], divider) && HasMarker(lines[a], divider, "abstract")
    requires forall j :: a < j < m ==> !IsDivider(lines[j], divider)
    requires IsDivider(lines[m], divider)
    requires HasMarker(lines[m], divider, "middle") && !HasMarker(lines[m], divider, "abstract")
    requires forall j :: m < j < |lines| ==> !IsDivider(lines[j], divider)
    requires lines[a + 1..m] == abstractBody && lines[m + 1..] == body
    ensures NextDivider(lines, divider, 1) == o
    ensures LexSections(lines, divider, o, "", [])
         == (AbstractText(abstractBody), LexBody(body, []))
  {
    NextDividerAt(lines, divider, 1, o);
    NextDividerAt(lines, divider, o + 1, a);
    SkipUpTo(lines, divider, o, a);
    SectionsFromAbstract(lines, divider, a, m, abstractBody, body);
  }

  /** Skipping an unmarked section that runs up to line `a`. */
  lemma SkipUpTo(lines: seq<string>, divider: string, o: nat, a: nat)
    requires o < a <= |lines|
    requires !HasMarker(lines[o], divider, "abstract") && !HasMarker(lines[o], divider, "middle")
    requires NextDivider(lines, divider, o + 1) == a
    ensures LexSections(lines, divider, o, "", []) == LexSections(lines, divider, a, "", [])
  {
    SkippedSection(lines, divider, o, "", []);
  }

  /** A section whose opening line has neither marker, put between the
      metadata and the abstract, changes nothing the lexer extracts: the
      metadata text, the abstract and the body blocks are as without it. */
  lemma LexSkipsUnmarkedSection(divider: string, meta: seq<string>,
                                otherLine: string, otherBody: seq<string>,
                                abstractLine: string, abstractBody: seq<string>,
                                middleLine: string, body: seq<string>)
    requires StartsWith(otherLine, divider)
    requires !HasMarker(otherLine, divider, "abstract") && !HasMarker(otherLine, divider, "middle")
    requires StartsWith(abstractLine, divider) && HasMarker(abstractLine, divider, "abstract")
    requires StartsWith(middleLine, divider) && HasMarker(middleLine, divider, "middle")
    requires !HasMarker(middleLine, divider, "abstract")
    requires forall i :: 0 <= i < |meta| ==> !StartsWith(meta[i], divider)
    requires forall i :: 0 <= i < |otherBody| ==> !StartsWith(otherBody[i], divider)
    requires forall i :: 0 <= i < |abstractBody| ==> !StartsWith(abstractBody[i], divider)
    requires forall i :: 0 <= i < |body| ==> !StartsWith(body[i], divider)
    requires var all := [divider] + meta + [otherLine] + otherBody + [abstractLine] + abstractBody + [middleLine] + body;
      forall i :: 0 <= i < |all| ==> '\n' !in all[i]
    ensures var doc := [divider] + meta + [abstractLine] + abstractBody + [middleLine] + body;
      var withOther := [divider] + meta + [otherLine] + otherBody + [abstractLine] + abstractBody + [middleLine] + body;
      Lex(Join(withOther, "\n")) == Lex(Join(doc, "\n"))
  {
    var head := [divider] + meta;
    var mid := [otherLine] + otherBody;
    var rest := [abstractLine] + abstractBody + [middleLine] + body;
    var doc := [divider] + meta + [abstractLine] + abstractBody + [middleLine] + body;
    var withOther := [divider] + meta + [otherLine] + otherBody + [abstractLine] + abstractBody + [middleLine] + body;
    assert doc == head + rest;
    assert withOther == head + mid + rest;
    forall i | 0 <= i < |doc| ensures '\n' !in doc[i] {
      if i < |head| {
        assert doc[i] == withOther[i];
      } else {
        assert doc[i] == withOther[i + |mid|];
      }
    }
    LexAssembledDocument(divider, meta, abstractLine, abstractBody, middleLine, body);
    SkippedDocumentLexes(divider, meta, otherLine, otherBody, abstractLine, abstractBody, middleLine, body);
  }

  /** The document with the unmarked section lexes into the parts of the
      document without it. */
  lemma SkippedDocumentLexes(divider: string, meta: seq<string>,
                             otherLine: string, otherBody: seq<string>,
                             abstractLine: string, abstractBody: seq<string>,
                             middleLine: string, body: seq<string>)
    requires StartsWith(otherLine, divider)
    requires !HasMarker(otherLine, divider, "abstract") && !HasMarker(otherLine, divider, "middle")
    requires StartsWith(abstractLine, divider) && HasMarker(abstractLine, divider, "abstract")
    requires StartsWith(middleLine, divider) && HasMarker(middleLine, divider, "middle")
    requires !HasMarker(middleLine, divider, "abstract")
    requires forall i :: 0 <= i < |meta| ==> !StartsWith(meta[i], divider)
    requires forall i :: 0 <= i < |otherBody| ==> !StartsWith(otherBody[i], divider)
    requires forall i :: 0 <= i < |abstractBody| ==> !StartsWith(abstractBody[i], divider)
    requires forall i :: 0 <= i < |body| ==> !StartsWith(body[i], divider)
    requires var all := [divider] + meta + [otherLine] + otherBody + [abstractLine] + abstractBody + [middleLine] + body;
      forall i :: 0 <= i < |all| ==> '\n' !in all[i]
    ensures var withOther := [divider] + meta + [otherLine] + otherBody + [abstractLine] + abstractBody + [middleLine] + body;
      Lex(Join(withOther, "\n")) == Lexed(Join(meta, "\n"), AbstractText(abstractBody), LexBody(body, []))
  {
    var withOther := [divider] + meta + [otherLine] + otherBody + [abstractLine] + abstractBody + [middleLine] + body;
    SplitOnJoin(withOther, '\n');
    LexOfSkippedLines(Join(withOther, "\n"), withOther, divider, meta, otherLine, otherBody,
                      abstractLine, abstractBody, middleLine, body);
  }

  lemma LexOfSkippedLines(text: string, lines: seq<string>, divider: string, meta: seq<string>,
                          otherLine: string, otherBody: seq<string>,
                          abstractLine: string, abstractBody: seq<string>,
                          middleLine: string, body: seq<string>)
    requires SplitOn(text, '\n') == lines
    requires lines == [divider] + meta + [otherLine] + otherBody + [abstractLine] + abstractBody + [middleLine] + body
    requires StartsWith(otherLine, divider)
    requires !HasMarker(otherLine, divider, "abstract") && !HasMarker(otherLine, divider, "middle")
    requires StartsWith(abstractLine, divider) && HasMarker(abstractLine, divider, "abstract")
    requires StartsWith(middleLine, divider) && HasMarker(middleLine, divider, "middle")
    requires !HasMarker(middleLine, divider, "abstract")
    requires forall i :: 0 <= i < |meta| ==> !StartsWith(meta[i], divider)
    requires forall i :: 0 <= i < |otherBody| ==> !StartsWith(otherBody[i], divider)
    requires forall i :: 0 <= i < |abstractBody| ==> !StartsWith(abstractBody[i], divider)
    requires forall i :: 0 <= i < |body| ==> !StartsWith(body[i], divider)
    ensures Lex(text) == Lexed(Join(meta, "\n"), AbstractText(abstractBody), LexBody(body, []))
  {
    var o := 1 + |meta|;
    var a := o + 1 + |otherBody|;
    var m := a + 1 + |abstractBody|;
    SkippedLines(lines, divider, meta, otherLine, otherBody, abstractLine, abstractBody, middleLine, body);
    SectionsAfterSkipped(lines, divider, o, a, m, abstractBody, body);
    LexOfLines(text, lines, divider, o, meta, AbstractText(abstractBody), LexBody(body, []));
  }

  /** Where the parts of a document with an unmarked section sit among its
      lines, and which of its lines are dividers. */
  lemma SkippedLines(lines: seq<string>, divider: string, meta: seq<string>,
                     otherLine: string, otherBody: seq<string>,
                     abstractLine: string, abstractBody: seq<string>,
                     middleLine: string, body: seq<string>)
    requires lines == [divider] + meta + [otherLine] + otherBody + [abstractLine] + abstractBody + [middleLine] + body
    requires StartsWith(otherLine, divider) && StartsWith(abstractLine, divider) && StartsWith(middleLine, divider)
    requires forall i :: 0 <= i < |meta| ==> !StartsWith(meta[i], divider)
    requires forall i :: 0 <= i < |otherBody| ==> !StartsWith(otherBody[i], divider)
    requires forall i :: 0 <= i < |abstractBody| ==> !StartsWith(abstractBody[i], divider)
    requires forall i :: 0 <= i < |body| ==> !StartsWith(body[i], divider)
    ensures var o := 1 + |meta|; var a := o + 1 + |otherBody|; var m := a + 1 + |abstractBody|;
      && m < |lines|
      && lines[0] == divider && lines[o] == otherLine && lines[a] == abstractLine && lines[m] == middleLine
      && lines[1..o] == meta && lines[a + 1..m] == abstractBody && lines[m + 1..] == body
      && (forall j :: 1 <= j < o ==> !IsDivider(lines[j], divider))
      && IsDivider(lines[o], divider)
      && (forall j :: o < j < a ==> !IsDivider(lines[j], divider))
      && IsDivider(lines[a], divider)
      && (forall j :: a < j < m ==> !IsDivider(lines[j], divider))
      && IsDivider(lines[m], divider)
      && (forall j :: m < j < |lines| ==> !IsDivider(lines[j], divider))
  {
    var o := 1 + |meta|;
    var a := o + 1 + |otherBody|;
    var m := a + 1 + |abstractBody|;
    SkippedLinesAt(lines, divider, meta, otherLine, otherBody, abstractLine, abstractBody, middleLine, body);
    NoDividerIn(lines, divider, 1, meta);
    NoDividerIn(lines, divider, o + 1, otherBody);
    NoDividerIn(lines, divider, a + 1, abstractBody);
    NoDividerIn(lines, divider, m + 1, body);
    DividerIffPrefix(otherLine, divider);
    DividerIffPrefix(abstractLine, divider);
    DividerIffPrefix(middleLine, divider);
  }

  lemma SkippedLinesAt(lines: seq<string>, divider: string, meta: seq<string>,
                       otherLine: string, otherBody: seq<string>,
                       abstractLine: string, abstractBody: seq<string>,
                       middleLine: string, body: seq<string>)
    requires lines == [divider] + meta + [otherLine] + otherBody + [abstractLine] + abstractBody + [middleLine] + body
    ensures var o := 1 + |meta|; var a := o + 1 + |otherBody|; var m := a + 1 + |abstractBody|;
      && m < |lines|
      && lines[0] == divider && lines[o] == otherLine && lines[a] == abstractLine && lines[m] == middleLine
      && lines[1..o] == meta && lines[o + 1..a] == otherBody && lines[a + 1..m] == abstractBody && lines[m + 1..] == body
  {
    var meta2 := meta + [otherLine] + otherBody;
    assert lines == [divider] + meta2 + [abstractLine] + abstractBody + [middleLine] + body;
    var o := 1 + |meta|;
    var a := o + 1 + |otherBody|;
    AssembledLines(lines, divider, meta2, abstractLine, abstractBody, middleLine, body);
    assert lines[1..o] == meta2[..|meta|] == meta;
    assert lines[o] == meta2[|meta|] == otherLine;
    assert lines[o + 1..a] == meta2[|meta| + 1..] == otherBody;
  }
}

=== FILE: paginate.dfy ===
/**
 The pagination of draftr's plain-text output: the rendered groups are packed
 greedily onto pages of a fixed number of rows, each page closed by a break
 block (blank filler, the footer with the page number, a form feed and, unless
 it is the last page, the running header of the next page).
 */
module Paginate {
  import opened Strings
  import opened Render

  /** One entry of the paginated output: a rendered group, or a page break
      with the number of filler lines, the number of the page it closes and
      whether it is the last one. */
  datatype Item = Group(lines: seq<string>) | Break(space: int, page: nat, last: bool)

  /** The plan from a given state of the loop: `page` is the current page and
      `used` the rows already taken on it. A group is placed when its lines
      and the blank line after it still fit; otherwise the page is closed with
      a break padding it to `rows`, the group opens the next page, and that
      page starts with the group, its blank line and the two header rows in
      use. An oversized group is placed all the same. */
  function PlanFrom(groups: seq<seq<string>>, rows: int, page: nat, used: int): (plan: seq<Item>)
    ensures |groups| + 1 <= |plan| <= 2 * |groups| + 1
    decreases |groups|
  {
    if |groups| == 0 then [Break(rows - used, page, true)]
    else if used + |groups[0]| + 1 <= rows then
      [Group(groups[0])] + PlanFrom(groups[1..], rows, page, used + |groups[0]| + 1)
    else
      [Break(rows - used, page, false), Group(groups[0])] + PlanFrom(groups[1..], rows, page + 1, |groups[0]| + 3)
  }

  /** The plan of a whole document: page 1, nothing used yet. It holds the
      groups in order, its breaks close pages 1, 2, ... in turn, and it ends
      with the break marked last. */
  function Plan(groups: seq<seq<string>>, rows: int): (plan: seq<Item>)
    ensures GroupsOf(plan) == groups
    ensures |plan| >= 1 && plan[|plan| - 1].Break? && plan[|plan| - 1].last
    ensures var breaks := BreaksOf(plan);
      && |breaks| >= 1
      && (forall k :: 0 <= k < |breaks| ==> breaks[k] == (k + 1, k == |breaks| - 1))
  {
    PlanKeepsGroups(groups, rows, 1, 0);
    PlanBreaks(groups, rows, 1, 0);
    PlanEndsWithLastBreak(groups, rows, 1, 0);
    PlanFrom(groups, rows, 1, 0)
  }

  /** The groups of a plan, breaks left out. */
  function GroupsOf(plan: seq<Item>): seq<seq<string>>
  {
    if |plan| == 0 then []
    else (if plan[0].Group? then [plan[0].lines] else []) + GroupsOf(plan[1..])
  }

  /** The breaks of a plan, as (page, last) pairs. */
  function BreaksOf(plan: seq<Item>): seq<(nat, bool)>
  {
    if |plan| == 0 then []
    else (if plan[0].Break? then [(plan[0].page, plan[0].last)] else []) + BreaksOf(plan[1..])
  }

  /** The rows in use on the current page after `items`, starting from
      `base`: each group takes its lines and a blank line, and a break leaves
      the two header rows of the next page. */
  function Load(items: seq<Item>, base: int): int
  {
    if |items| == 0 then base
    else if items[|items| - 1].Break? then 2
    else Load(items[..|items| - 1], base) + |items[|items| - 1].lines| + 1
  }

  lemma {:induction false} GroupsOfAppend(xs: seq<Item>, ys: seq<Item>)
    ensures GroupsOf(xs + ys) == GroupsOf(xs) + GroupsOf(ys)
  {
    if |xs| == 0 {
      assert xs + ys == ys;
    } else {
      assert (xs + ys)[0] == xs[0];
      assert (xs + ys)[1..] == xs[1..] + ys;
      GroupsOfAppend(xs[1..], ys);
    }
  }

  lemma {:induction false} BreaksOfAppend(xs: seq<Item>, ys: seq<Item>)
    ensures BreaksOf(xs + ys) == BreaksOf(xs) + BreaksOf(ys)
  {
    if |xs| == 0 {
      assert xs + ys == ys;
    } else {
      assert (xs + ys)[0] == xs[0];
      assert (xs + ys)[1..] == xs[1..] + ys;
      BreaksOfAppend(xs[1..], ys);
    }
  }

  lemma {:induction false} LoadAppend(xs: seq<Item>, ys: seq<Item>, base: int)
    ensures Load(xs + ys, base) == Load(ys, Load(xs, base))
    decreases |ys|
  {
    if |ys| == 0 {
      assert xs + ys == xs;
    } else {
      var n := |ys| - 1;
      assert (xs + ys)[..|xs| + n] == xs + ys[..n];
      assert (xs + ys)[|xs| + n] == ys[n];
      LoadAppend(xs, ys[..n], base);
    }
  }

  /** Pagination neither drops, duplicates nor reorders groups. */
  lemma {:induction false} PlanKeepsGroups(groups: seq<seq<string>>, rows: int, page: nat, used: int)
    ensures GroupsOf(PlanFrom(groups, rows, page, used)) == groups
    decreases |groups|
  {
    if |groups| == 0 {
    } else if used + |groups[0]| + 1 <= rows {
      PlanKeepsGroups(groups[1..], rows, page, used + |groups[0]| + 1);
      GroupsOfAppend([Group(groups[0])], PlanFrom(groups[1..], rows, page, used + |groups[0]| + 1));
      assert GroupsOf([Group(groups[0])]) == [groups[0]];
    } else {
      PlanKeepsGroups(groups[1..], rows, page + 1, |groups[0]| + 3);
      var head := [Break(rows - used, page, false), Group(groups[0])];
      GroupsOfAppend(head, PlanFrom(groups[1..], rows, page + 1, |groups[0]| + 3));
      assert GroupsOf(head) == [groups[0]] by {
        assert head[1..] == [Group(groups[0])];
        assert GroupsOf(head[1..]) == [groups[0]];
      }
    }
  }

  /** The breaks close consecutive pages from the current one on, and only
      the final break is marked last. */
  lemma {:induction false} PlanBreaks(groups: seq<seq<string>>, rows: int, page: nat, used: int)
    ensures var breaks := BreaksOf(PlanFrom(groups, rows, page, used));
      && |breaks| >= 1
      && (forall k :: 0 <= k < |breaks| ==> breaks[k].0 == page + k)
      && (forall k :: 0 <= k < |breaks| ==> (breaks[k].1 <==> k == |breaks| - 1))
    decreases |groups|
  {
    if |groups| == 0 {
      assert BreaksOf([Break(rows - used, page, true)]) == [(page, true)];
    } else if used + |groups[0]| + 1 <= rows {
      var rest := PlanFrom(groups[1..], rows, page, used + |groups[0]| + 1);
      PlanBreaks(groups[1..], rows, page, used + |groups[0]| + 1);
      BreaksAfterGroup(groups[0], rest);
    } else {
      var rest := PlanFrom(groups[1..], rows, page + 1, |groups[0]| + 3);
      PlanBreaks(groups[1..], rows, page + 1, |groups[0]| + 3);
      BreaksAfterBreak(Break(rows - used, page, false), groups[0], rest);
      ConsecutiveBreaks(page, BreaksOf(rest));
    }
  }

  /** A group in front adds no break. */
  lemma BreaksAfterGroup(g: seq<string>, rest: seq<Item>)
    ensures BreaksOf([Group(g)] + rest) == BreaksOf(rest)
  {
    BreaksOfAppend([Group(g)], rest);
    assert BreaksOf([Group(g)]) == [];
  }

  /** A break and a group in front add that one break. */
  lemma BreaksAfterBreak(b: Item, g: seq<string>, rest: seq<Item>)
    requires b.Break?
    ensures BreaksOf([b, Group(g)] + rest) == [(b.page, b.last)] + BreaksOf(rest)
  {
    var head := [b, Group(g)];
    BreaksOfAppend(head, rest);
    assert head[1..] == [Group(g)];
    assert BreaksOf(head[1..]) == [];
  }

  /** Breaks numbered consecutively from `page + 1`, with only the final one
      last, stay so with a break of `page` that is not last put in front. */
  lemma ConsecutiveBreaks(page: nat, rest: seq<(nat, bool)>)
    requires |rest| >= 1
    requires forall k :: 0 <= k < |rest| ==> rest[k].0 == page + 1 + k
    requires forall k :: 0 <= k < |rest| ==> (rest[k].1 <==> k == |rest| - 1)
    ensures var breaks := [(page, false)] + rest;
      && (forall k :: 0 <= k < |breaks| ==> breaks[k].0 == page + k)
      && (forall k :: 0 <= k < |breaks| ==> (breaks[k].1 <==> k == |breaks| - 1))
  {
    var breaks := [(page, false)] + rest;
    forall k | 1 <= k < |breaks|
      ensures breaks[k].0 == page + k && (breaks[k].1 <==> k == |breaks| - 1)
    {
      assert breaks[k] == rest[k - 1];
    }
  }

  /** The plan ends with the last page's break. */
  lemma {:induction false} PlanEndsWithLastBreak(groups: seq<seq<string>>, rows: int, page: nat, used: int)
    ensures var plan := PlanFrom(groups, rows, page, used);
      plan[|plan| - 1].Break? && plan[|plan| - 1].last
    decreases |groups|
  {
    if |groups| > 0 {
      if used + |groups[0]| + 1 <= rows {
        PlanEndsWithLastBreak(groups[1..], rows, page, used + |groups[0]| + 1);
      } else {
        PlanEndsWithLastBreak(groups[1..], rows, page + 1, |groups[0]| + 3);
      }
    }
  }

  /** The final break of a plan is its last entry in the list of breaks. */
  lemma {:induction false} LastBreakPage(plan: seq<Item>)
    requires |plan| >= 1 && plan[|plan| - 1].Break?
    ensures |BreaksOf(plan)| >= 1
    ensures BreaksOf(plan)[|BreaksOf(plan)| - 1] == (plan[|plan| - 1].page, plan[|plan| - 1].last)
  {
    var n := |plan| - 1;
    assert plan == plan[..n] + [plan[n]];
    BreaksOfAppend(plan[..n], [plan[n]]);
    var single: seq<Item> := [plan[n]];
    assert single[1..] == [];
    assert BreaksOf(single) == [(plan[n].page, plan[n].last)];
  }

  /** The plan closes with the break of its last page, and that page's
      number is the number of pages. */
  lemma PlanPageCount(groups: seq<seq<string>>, rows: int)
    ensures var plan := Plan(groups, rows);
      && |plan| >= 1 && plan[|plan| - 1].Break?
      && plan[|plan| - 1] == Break(plan[|plan| - 1].space, |BreaksOf(plan)|, true)
  {
    PlanEndsWithLastBreak(groups, rows, 1, 0);
    LastBreakPage(Plan(groups, rows));
  }

  lemma LoadAfterHead(head: seq<Item>, rest: seq<Item>, base: int, j: nat)
    requires |head| <= j <= |head| + |rest|
    ensures Load((head + rest)[..j], base) == Load(rest[..j - |head|], Load(head, base))
  {
    assert (head + rest)[..j] == head + rest[..j - |head|];
    LoadAppend(head, rest[..j - |head|], base);
  }

  /** The rows in use after the first item of a plan that starts with a
      fitting group, and after the first two of one that starts with a
      break. */
  lemma HeadLoads(g: seq<string>, used: int, rows: int, page: nat)
    ensures Load([Group(g)], used) == used + |g| + 1
    ensures Load([Break(rows - used, page, false), Group(g)], used) == |g| + 3
  {
    assert [Group(g)][..0] == [];
    var head := [Break(rows - used, page, false), Group(g)];
    assert head[..1] == [Break(rows - used, page, false)];
  }

  /** Every break pads its page to exactly `rows` rows: its filler is `rows`
      minus the rows in use before it. */
  lemma {:induction false} BreakFillsPage(groups: seq<seq<string>>, rows: int, page: nat, used: int, j: nat)
    requires j < |PlanFrom(groups, rows, page, used)| && PlanFrom(groups, rows, page, used)[j].Break?
    ensures var plan := PlanFrom(groups, rows, page, used);
      plan[j].space == rows - Load(plan[..j], used)
    decreases |groups|
  {
    var plan := PlanFrom(groups, rows, page, used);
    if |groups| == 0 || j == 0 {
      assert plan[..0] == [];
    } else {
      var g := groups[0];
      HeadLoads(g, used, rows, page);
      if used + |g| + 1 <= rows {
        var rest := PlanFrom(groups[1..], rows, page, used + |g| + 1);
        assert plan == [Group(g)] + rest;
        BreakFillsPage(groups[1..], rows, page, used + |g| + 1, j - 1);
        LoadAfterHead([Group(g)], rest, used, j);
      } else {
        var head := [Break(rows - used, page, false), Group(g)];
        var rest := PlanFrom(groups[1..], rows, page + 1, |g| + 3);
        assert plan == head + rest;
        BreakFillsPage(groups[1..], rows, page + 1, |g| + 3, j - 2);
        LoadAfterHead(head, rest, used, j);
      }
    }
  }

  /** A page is only closed early when the group after the break would not
      have fitted on it; that group then opens the next page. */
  lemma {:induction false} BreakOnlyWhenFull(groups: seq<seq<string>>, rows: int, page: nat, used: int, j: nat)
    requires var plan := PlanFrom(groups, rows, page, used);
      j < |plan| && plan[j].Break? && !plan[j].last
    ensures var plan := PlanFrom(groups, rows, page, used);
      && j + 1 < |plan| && plan[j + 1].Group?
      && Load(plan[..j], used) + |plan[j + 1].lines| + 1 > rows
    decreases |groups|
  {
    var plan := PlanFrom(groups, rows, page, used);
    var g := groups[0];
    HeadLoads(g, used, rows, page);
    if used + |g| + 1 <= rows {
      var rest := PlanFrom(groups[1..], rows, page, used + |g| + 1);
      assert plan == [Group(g)] + rest;
      BreakOnlyWhenFull(groups[1..], rows, page, used + |g| + 1, j - 1);
      LoadAfterHead([Group(g)], rest, used, j);
    } else if j == 0 {
      assert plan[..0] == [];
    } else {
      var head := [Break(rows - used, page, false), Group(g)];
      var rest := PlanFrom(groups[1..], rows, page + 1, |g| + 3);
      assert plan == head + rest;
      BreakOnlyWhenFull(groups[1..], rows, page + 1, |g| + 3, j - 2);
      LoadAfterHead(head, rest, used, j);
    }
  }

  /** A group that does not open a page was placed where it fitted. */
  lemma {:induction false} PlacedGroupFits(groups: seq<seq<string>>, rows: int, page: nat, used: int, j: nat)
    requires var plan := PlanFrom(groups, rows, page, used);
      j < |plan| && plan[j].Group? && (j == 0 || plan[j - 1].Group?)
    ensures var plan := PlanFrom(groups, rows, page, used);
      Load(plan[..j], used) + |plan[j].lines| + 1 <= rows
    decreases |groups|
  {
    var plan := PlanFrom(groups, rows, page, used);
    var g := groups[0];
    HeadLoads(g, used, rows, page);
    if used + |g| + 1 <= rows {
      var rest := PlanFrom(groups[1..], rows, page, used + |g| + 1);
      assert plan == [Group(g)] + rest;
      if j == 0 {
        assert plan[..0] == [];
      } else {
        PlacedGroupFits(groups[1..], rows, page, used + |g| + 1, j - 1);
        LoadAfterHead([Group(g)], rest, used, j);
      }
    } else {
      var head := [Break(rows - used, page, false), Group(g)];
      var rest := PlanFrom(groups[1..], rows, page + 1, |g| + 3);
      assert plan == head + rest;
      PlacedGroupFits(groups[1..], rows, page + 1, |g| + 3, j - 2);
      LoadAfterHead(head, rest, used, j);
    }
  }

  /** A page break as laid out: `space` blank lines (none when it is not
      positive), the footer with the page number, a form feed, and the
      running header when another page follows. */
  function BreakBlock(space: int, page: nat, last: bool, footer: string, header: string): (block: seq<string>)
    ensures var pad := Max(space, 0);
      && |block| == pad + (if last then 2 else 3)
      && (forall i :: 0 <= i < pad ==> block[i] == "")
      && block[pad] == MakeFooter(footer, page)
      && block[pad + 1] == "\U{000C}"
      && (!last ==> block[pad + 2] == header)
  {
    var spacer := seq(Max(space, 0), _ => "");
    if last then spacer + [MakeFooter(footer, page), "\U{000C}"]
    else spacer + [MakeFooter(footer, page), "\U{000C}", header]
  }

  /** The lines of one entry of a plan: a group as it is, a break laid out. */
  function ItemLines(item: Item, footer: string, header: string): seq<string>
  {
    match item
    case Group(lines) => lines
    case Break(space, page, last) => BreakBlock(space, page, last, footer, header)
  }

  /** The line blocks of a plan, breaks laid out. */
  function Expand(plan: seq<Item>, footer: string, header: string): (blocks: seq<seq<string>>)
    ensures |blocks| == |plan|
    ensures forall j :: 0 <= j < |plan| ==> blocks[j] == ItemLines(plan[j], footer, header)
    ensures forall j :: 0 <= j < |plan| && plan[j].Group? ==> blocks[j] == plan[j].lines
  {
    seq(|plan|, j requires 0 <= j < |plan| => ItemLines(plan[j], footer, header))
  }

  /** A page closed by a break with non-negative filler holds exactly `rows`
      rows. */
  lemma PageIsFull(groups: seq<seq<string>>, rows: int, j: nat)
    requires var plan := Plan(groups, rows);
      j < |plan| && plan[j].Break? && plan[j].space >= 0
    ensures var plan := Plan(groups, rows);
      Load(plan[..j], 0) + |Expand(plan, "", "")[j]| - (if plan[j].last then 2 else 3) == rows
  {
    BreakFillsPage(groups, rows, 1, 0, j);
  }

  /** One step of the plan from position `i` of the groups. */
  lemma PlanFromAt(groups: seq<seq<string>>, i: nat, rows: int, page: nat, used: int,
                   step: seq<Item>, nextPage: nat, nextUsed: int)
    requires i < |groups|
    requires used + |groups[i]| + 1 <= rows ==>
      step == [Group(groups[i])] && nextPage == page && nextUsed == used + |groups[i]| + 1
    requires used + |groups[i]| + 1 > rows ==>
      step == [Break(rows - used, page, false), Group(groups[i])] && nextPage == page + 1 && nextUsed == |groups[i]| + 3
    ensures PlanFrom(groups[i..], rows, page, used) == step + PlanFrom(groups[i + 1..], rows, nextPage, nextUsed)
  {
    assert groups[i..][1..] == groups[i + 1..];
  }

  lemma Regroup(xs: seq<Item>, ys: seq<Item>, zs: seq<Item>)
    ensures xs + (ys + zs) == (xs + ys) + zs
  {
  }

  /** The pagination loop as written: one pass over the groups, carrying the
      current page and the rows in use on it. */
  method PaginateLoop(groups: seq<seq<string>>, rows: int) returns (plan: seq<Item>)
    ensures plan == Plan(groups, rows)
    ensures GroupsOf(plan) == groups
    ensures |plan| >= 1 && plan[|plan| - 1].Break? && plan[|plan| - 1].last
  {
    var page: nat := 1;
    var used := 0;
    plan := [];
    var i := 0;
    while i < |groups|
      invariant 0 <= i <= |groups|
      invariant plan + PlanFrom(groups[i..], rows, page, used) == Plan(groups, rows)
    {
      var g := groups[i];
      var step, nextPage, nextUsed;
      if used + |g| + 1 <= rows {
        step, nextPage, nextUsed := [Group(g)], page, used + |g| + 1;
      } else {
        step, nextPage, nextUsed := [Break(rows - used, page, false), Group(g)], page + 1, |g| + 3;
      }
      PlanFromAt(groups, i, rows, page, used, step, nextPage, nextUsed);
      Regroup(plan, step, PlanFrom(groups[i + 1..], rows, nextPage, nextUsed));
      plan, page, used := plan + step, nextPage, nextUsed;
      i := i + 1;
    }
    assert groups[i..] == [];
    plan := plan + [Break(rows - used, page, true)];
    PlanKeepsGroups(groups, rows, 1, 0);
    PlanEndsWithLastBreak(groups, rows, 1, 0);
  }

  /** Three groups of four lines on pages of ten rows: two fit on page 1
      (5 + 5 rows), the third opens page 2 and leaves three rows of filler. */
  lemma PlanExample(g: seq<string>)
    requires |g| == 4
    ensures Plan([g, g, g], 10)
         == [Group(g), Group(g), Break(0, 1, false), Group(g), Break(3, 2, true)]
  {
    var gs := [g, g, g];
    assert gs[1..] == [g, g] && gs[1..][1..] == [g] && gs[1..][1..][1..] == [];
    assert PlanFrom([], 10, 2, 7) == [Break(3, 2, true)];
    assert PlanFrom([g], 10, 1, 10) == [Break(0, 1, false), Group(g), Break(3, 2, true)];
    assert PlanFrom([g, g], 10, 1, 5) == [Group(g)] + PlanFrom([g], 10, 1, 10);
  }
}

=== FILE: render.dfy ===
/**
 The renderer of draftr (`toTXT` up to pagination): it turns a document into
 the ordered groups of fixed-width lines that the paginator packs into pages,
 and builds the running page header and footer.
 */
module Render {
  import opened Strings
  import opened Layout
  import opened Markdown

  /** The page geometry: body indent, page width, rows per page and the
      width the title would be wrapped at. */
  const RfcIndent: int := 3
  const RfcCols: int := 72
  const RfcRows: int := 54
  const RfcTitleCols: int := 60

  /** The depth of section numbering, and the counters before the first
      heading. */
  const Depth: nat := 6
  const Zeros: seq<nat> := [0, 0, 0, 0, 0, 0]

  datatype Author = Author(ins: string, org: string)

  /** The parsed metadata the renderer reads. */
  datatype Meta = Meta(title: string, docname: string, abbrev: string,
                       category: string, ipr: string, author: seq<Author>)

  /** The date texts, already formatted: the issue date ("March 5, 2014"),
      the expiry date six months on, and the month and year of the header. */
  datatype Dates = Dates(issued: string, expires: string, month: string)

  datatype Document = Document(meta: Meta, abstractText: string, blocks: seq<Block>)

  /** The fixed text the renderer copies: the legal boilerplate paragraphs of
      the trust200902 IPR variant (draftr has six of them) and the
      table-of-contents placeholder. */
  datatype Literals = Literals(trust200902: seq<seq<string>>, toc: seq<string>)

  // ---------------------------------------------------------------- status

  function LowerChar(c: char): char {
    if 'A' <= c <= 'Z' then (c as int + 32) as char else c
  }

  /** Lower-casing of the letters A to Z. */
  function LowerAscii(s: string): (r: string)
    ensures |r| == |s|
  {
    seq(|s|, k requires 0 <= k < |s| => LowerChar(s[k]))
  }

  /** The "Intended status" label for a document category, ignoring case. */
  function RenderStatus(category: string): (status: string)
    ensures status == "Standards Track" <==> LowerAscii(category) == "std"
    ensures status == "Informational" <==> LowerAscii(category) == "info"
    ensures status == "Experimental" <==> LowerAscii(category) == "exp"
    ensures status == "BCP" <==> LowerAscii(category) == "bcp"
    ensures status == "Unknown" <==> LowerAscii(category) !in {"std", "info", "exp", "bcp"}
  {
    match LowerAscii(category)
    case "std" => "Standards Track"
    case "info" => "Informational"
    case "exp" => "Experimental"
    case "bcp" => "BCP"
    case _ => "Unknown"
  }

  /** Categories written in any mix of case get their label. */
  lemma RenderStatusExamples()
    ensures RenderStatus("STD") == "Standards Track"
    ensures RenderStatus("Info") == "Informational"
    ensures RenderStatus("eXp") == "Experimental"
    ensures RenderStatus("BCP") == "BCP"
    ensures RenderStatus("standard") == "Unknown"
  {
    assert LowerAscii("STD") == "std";
    assert LowerAscii("Info") == "info";
    assert LowerAscii("eXp") == "exp";
    assert LowerAscii("BCP") == "bcp";
  }

  // ---------------------------------------------------------- front matter

  /** The organisation of author `i` is listed when it is the last author or
      the next author's organisation differs. */
  predicate OrgShown(authors: seq<Author>, i: nat)
    requires i < |authors|
  {
    i == |authors| - 1 || authors[i].org != authors[i + 1].org
  }

  /** The rows author `i` contributes: the name, then the organisation
      when it is listed. */
  function OwnRows(authors: seq<Author>, i: nat): seq<string>
    requires i < |authors|
  {
    if OrgShown(authors, i) then [authors[i].ins, authors[i].org] else [authors[i].ins]
  }

  /** The author rows of the right column for the first `n` authors. */
  function AuthorRows(authors: seq<Author>, n: nat): seq<string>
    requires n <= |authors|
  {
    if n == 0 then [] else AuthorRows(authors, n - 1) + OwnRows(authors, n - 1)
  }

  /** The row of author `n`'s name: `n` plus the number of organisations
      listed before it, counted independently of the rows themselves. */
  function NameRow(authors: seq<Author>, n: nat): nat
    requires n <= |authors|
  {
    if n == 0 then 0 else NameRow(authors, n - 1) + (if OrgShown(authors, n - 1) then 2 else 1)
  }

  lemma {:induction false} AuthorRowsLength(authors: seq<Author>, n: nat)
    requires n <= |authors|
    ensures |AuthorRows(authors, n)| == NameRow(authors, n)
  {
    if n > 0 {
      AuthorRowsLength(authors, n - 1);
    }
  }

  /** Where each author sits in the right column: the name at its name row,
      and the organisation, when listed, on the row after. */
  lemma {:induction false} AuthorRowsAt(authors: seq<Author>, n: nat, i: nat)
    requires i < n <= |authors|
    ensures NameRow(authors, i) < |AuthorRows(authors, n)|
    ensures AuthorRows(authors, n)[NameRow(authors, i)] == authors[i].ins
    ensures OrgShown(authors, i) ==>
      && NameRow(authors, i) + 1 < |AuthorRows(authors, n)|
      && AuthorRows(authors, n)[NameRow(authors, i) + 1] == authors[i].org
  {
    AuthorRowsLength(authors, n - 1);
    var prev := AuthorRows(authors, n - 1);
    assert AuthorRows(authors, n) == prev + OwnRows(authors, n - 1);
    if i < n - 1 {
      AuthorRowsAt(authors, n - 1, i);
    }
  }

  /** The right column of the front matter: the author rows, then the date. */
  function RightColumn(authors: seq<Author>, issued: string): (column: seq<string>)
    ensures |column| == NameRow(authors, |authors|) + 1
    ensures column[|column| - 1] == issued
  {
    AuthorRowsLength(authors, |authors|);
    AuthorRows(authors, |authors|) + [issued]
  }

  /** The left column of the front matter: the group name, the document
      kind, the intended status and the expiry date. */
  function LeftColumn(meta: Meta, dates: Dates): (column: seq<string>)
    ensures |column| == 4
    ensures column[..2] == ["Network Working Group", "Internet-Draft"]
    ensures StartsWith(column[2], "Intended status: ") && column[2][17..] == RenderStatus(meta.category)
    ensures StartsWith(column[3], "Expires: ") && column[3][9..] == dates.expires
  {
    [ "Network Working Group",
      "Internet-Draft",
      "Intended status: " + RenderStatus(meta.category),
      "Expires: " + dates.expires ]
  }

  /** One line of the two-column block: a blank line of `width`, with the
      left entry (if any) overlaid at the left and then the right entry (if
      any) at the right. */
  function MergeLine(left: seq<string>, right: seq<string>, i: nat, width: int): (line: string)
    ensures i < |left| && i < |right| && |left[i]| + |right[i]| <= width ==>
      && |line| == width
      && line[..|left[i]|] == left[i]
      && line[width - |right[i]|..] == right[i]
      && AllChar(line[|left[i]|..width - |right[i]|], ' ')
    ensures i < |left| && i >= |right| && |left[i]| <= width ==>
      |line| == width && line[..|left[i]|] == left[i] && AllChar(line[|left[i]|..], ' ')
    ensures i >= |left| && i < |right| && |right[i]| <= width ==>
      |line| == width && line[width - |right[i]|..] == right[i] && AllChar(line[..width - |right[i]|], ' ')
  {
    var line := Blank(width);
    var line := if i < |left| then InsertLeftAligned(left[i], line) else line;
    if i < |right| then
      if i < |left| && |left[i]| + |right[i]| <= width then
        BetweenColumns(left[i], right[i], width);
        InsertRightAligned(right[i], line)
      else
        InsertRightAligned(right[i], line)
    else
      line
  }

  /** Between a left and a right entry that fit side by side there are
      only spaces. */
  lemma BetweenColumns(l: string, r: string, width: int)
    requires |l| + |r| <= width
    ensures var line := InsertRightAligned(r, InsertLeftAligned(l, Blank(width)));
      && |line| == width
      && line[..|l|] == l
      && line[width - |r|..] == r
      && AllChar(line[|l|..width - |r|], ' ')
  {
    var blank := Blank(width);
    var mid := InsertLeftAligned(l, blank);
    var line := InsertRightAligned(r, mid);
    assert |blank| == width && AllChar(blank, ' ');
    assert |mid| == width && mid[..|l|] == l && mid[|l|..] == blank[|l|..];
    assert |line| == width && line[..width - |r|] == mid[..width - |r|];
    assert line[..|l|] == line[..width - |r|][..|l|];
    assert mid[..|l|] == mid[..width - |r|][..|l|];
    forall k | |l| <= k < width - |r|
      ensures line[k] == ' '
    {
      assert line[k] == line[..width - |r|][k] == mid[..width - |r|][k] == mid[k];
      assert mid[k] == mid[|l|..][k - |l|] == blank[|l|..][k - |l|] == blank[k];
    }
  }

  /** The two columns merged line by line. */
  function ColumnLines(left: seq<string>, right: seq<string>, width: int): (lines: seq<string>)
    ensures |lines| == Max(|left|, |right|)
    ensures forall i :: 0 <= i < |lines| ==> lines[i] == MergeLine(left, right, i, width)
  {
    seq(Max(|left|, |right|), i requires 0 <= i => MergeLine(left, right, i, width))
  }

  function CenteredLine(text: string): string
  {
    InsertCentered(text, Blank(RfcCols))
  }

  /** The front-matter group: three blank lines, the merged columns, two
      blank lines, the title and the document name, both centred. The title
      is passed to wrapText with indent 0, so it is never wrapped. */
  function FrontMatter(meta: Meta, dates: Dates): (lines: seq<string>)
    ensures |lines| == 7 + Max(4, NameRow(meta.author, |meta.author|) + 1)
    ensures lines[..3] == ["", "", ""]
    ensures lines[|lines| - 4..|lines| - 2] == ["", ""]
    ensures lines[|lines| - 2] == CenteredLine(meta.title)
    ensures lines[|lines| - 1] == CenteredLine(meta.docname)
    ensures lines[3..|lines| - 4] == ColumnLines(LeftColumn(meta, dates), RightColumn(meta.author, dates.issued), RfcCols)
  {
    var columns := ColumnLines(LeftColumn(meta, dates), RightColumn(meta.author, dates.issued), RfcCols);
    var tail := ["", "", CenteredLine(meta.title), CenteredLine(meta.docname)];
    var lines := ["", "", ""] + columns + tail;
    assert lines[..3] == ["", "", ""];
    assert lines[3..|lines| - 4] == columns;
    assert lines[|lines| - 4..] == tail;
    assert CenteredTitle(meta.title) == [CenteredLine(meta.title)];
    ["", "", ""] + columns + (["", ""] + CenteredTitle(meta.title) + [CenteredLine(meta.docname)])
  }

  /** The title lines: the title wrapped with indent 0, each line centred. */
  function CenteredTitle(title: string): (lines: seq<string>)
    ensures lines == [CenteredLine(title)]
  {
    var wrapped := WrapText(title, 0, RfcTitleCols);
    seq(|wrapped|, i requires 0 <= i < |wrapped| => CenteredLine(wrapped[i]))
  }

  /** The abstract group: a heading line, a blank line and the wrapped text,
      indented by the body indent and within the page width except for a
      word too long for any line. */
  function AbstractGroup(text: string): (lines: seq<string>)
    ensures |lines| >= 3 && lines[..2] == ["Abstract", ""]
    ensures forall i :: 2 <= i < |lines| ==> StartsWith(lines[i], "  ")
    ensures forall i :: 2 <= i < |lines| ==> WithinWidth("  ", lines[i], RfcCols)
    ensures lines[2..] == WrapText(text, RfcIndent, RfcCols)
  {
    assert Blank(RfcIndent - 1) == "  ";
    ["Abstract", ""] + WrapText(text, RfcIndent, RfcCols)
  }

  /** Line `r` of `lines` is a full-width line that ends with `entry`. */
  predicate EndsLine(lines: seq<string>, r: nat, entry: string) {
    && r < |lines|
    && |lines[r]| == RfcCols
    && |entry| <= RfcCols
    && lines[r][RfcCols - |entry|..] == entry
  }

  /** Author `i`'s name and organisation each fit on a line, and beside the
      left-column entry of their row when there is one. */
  predicate AuthorFits(meta: Meta, dates: Dates, i: nat)
    requires i < |meta.author|
  {
    var row := NameRow(meta.author, i);
    var left := LeftColumn(meta, dates);
    && |meta.author[i].ins| <= RfcCols
    && (row < |left| ==> |left[row]| + |meta.author[i].ins| <= RfcCols)
    && |meta.author[i].org| <= RfcCols
    && (row + 1 < |left| ==> |left[row + 1]| + |meta.author[i].org| <= RfcCols)
  }

  /** The author's name sits at the right end of its row of the front
      matter, and a listed organisation at the right end of the next row,
      when each fits beside the left column's entry. */
  lemma FrontMatterShowsAuthor(meta: Meta, dates: Dates, i: nat)
    requires i < |meta.author|
    requires AuthorFits(meta, dates, i)
    ensures EndsLine(FrontMatter(meta, dates), 3 + NameRow(meta.author, i), meta.author[i].ins)
    ensures OrgShown(meta.author, i) ==>
      EndsLine(FrontMatter(meta, dates), 4 + NameRow(meta.author, i), meta.author[i].org)
  {
    var authors := meta.author;
    var right := RightColumn(authors, dates.issued);
    var row := NameRow(authors, i);
    AuthorRowsAt(authors, |authors|, i);
    AuthorRowsLength(authors, |authors|);
    assert right[row] == authors[i].ins;
    FrontMatterEntry(meta, dates, row);
    if OrgShown(authors, i) {
      assert right[row + 1] == authors[i].org;
      FrontMatterEntry(meta, dates, row + 1);
    }
  }

  /** A right-column entry that fits beside its left entry ends its line of
      the front matter. */
  lemma FrontMatterEntry(meta: Meta, dates: Dates, row: nat)
    requires var right := RightColumn(meta.author, dates.issued); var left := LeftColumn(meta, dates);
      && row < |right| && |right[row]| <= RfcCols
      && (row < |left| ==> |left[row]| + |right[row]| <= RfcCols)
    ensures EndsLine(FrontMatter(meta, dates), 3 + row, RightColumn(meta.author, dates.issued)[row])
  {
    FrontMatterRow(meta, dates, row);
    RightEntryAt(LeftColumn(meta, dates), RightColumn(meta.author, dates.issued), row, RfcCols);
  }

  /** Row `row` of the merged columns is line `3 + row` of the front matter. */
  lemma FrontMatterRow(meta: Meta, dates: Dates, row: nat)
    requires row < |RightColumn(meta.author, dates.issued)|
    ensures var lines := FrontMatter(meta, dates);
      && 3 + row < |lines|
      && lines[3 + row] == ColumnLines(LeftColumn(meta, dates), RightColumn(meta.author, dates.issued), RfcCols)[row]
  {
    var lines := FrontMatter(meta, dates);
    assert lines[3 + row] == lines[3..|lines| - 4][row];
  }

  /** A right-column entry that fits beside its left entry ends its line. */
  lemma RightEntryAt(left: seq<string>, right: seq<string>, row: nat, width: int)
    requires row < |right| && |right[row]| <= width
    requires row < |left| ==> |left[row]| + |right[row]| <= width
    ensures var line := ColumnLines(left, right, width)[row];
      |line| == width && line[width - |right[row]|..] == right[row]
  {
  }

  /** The words of the abstract's text lines, read back after the indent,
      are the words of the abstract, in order. */
  lemma AbstractGroupKeepsWords(text: string)
    ensures var lines := AbstractGroup(text)[2..];
      && (forall i :: 0 <= i < |lines| ==> 2 <= |lines[i]|)
      && WordsOf("  ", lines) == SplitWhitespace(text)
      && Join(WordsOf("  ", lines), " ") == CollapseWhitespace(text)
    ensures forall i :: 2 <= i < |AbstractGroup(text)| ==>
      AbstractGroup(text)[i] == "  " + Spaced(LineWords("  ", AbstractGroup(text)[i]))
  {
    assert Blank(RfcIndent - 1) == "  ";
    WrapTextKeepsWords(text, RfcIndent, RfcCols);
    LinesAreTheirWords("  ", AbstractGroup(text)[2..]);
    forall i | 2 <= i < |AbstractGroup(text)|
      ensures AbstractGroup(text)[i] == "  " + Spaced(LineWords("  ", AbstractGroup(text)[i]))
    {
      assert AbstractGroup(text)[i] == AbstractGroup(text)[2..][i - 2];
    }
  }

  // ------------------------------------------------------- section numbers

  /** `sectionReset(level)`: the counters from `level` on go back to zero. */
  function Reset(counters: seq<nat>, level: nat): (r: seq<nat>)
    requires |counters| == Depth && level <= Depth
    ensures |r| == Depth
    ensures r[..level] == counters[..level]
    ensures forall i :: level <= i < Depth ==> r[i] == 0
  {
    seq(Depth, i requires 0 <= i < Depth => if i < level then counters[i] else 0)
  }

  /** The counters after a heading at `level`: the deeper counters are zero,
      the heading's own counter goes up by one and the shallower ones stay. */
  function Bump(counters: seq<nat>, level: nat): (r: seq<nat>)
    requires |counters| == Depth && 1 <= level <= Depth
    ensures |r| == Depth
    ensures r[..level - 1] == counters[..level - 1]
    ensures r[level - 1] == counters[level - 1] + 1
    ensures forall i :: level <= i < Depth ==> r[i] == 0
  {
    var reset := Reset(counters, level);
    reset[level - 1 := reset[level - 1] + 1]
  }

  function Components(counters: seq<nat>, level: nat): (parts: seq<string>)
    requires level <= |counters|
    ensures |parts| == level
    ensures forall i :: 0 <= i < level ==> parts[i] == NatToString(counters[i])
  {
    seq(level, i requires 0 <= i < level => NatToString(counters[i]))
  }

  /** The number of a heading: the first `level` counters joined by "." and
      followed by ". ". */
  function NumberPrefix(counters: seq<nat>, level: nat): (prefix: string)
    requires |counters| == Depth && 1 <= level <= Depth
    ensures |prefix| >= 3 && prefix[|prefix| - 2..] == ". "
  {
    Join(Components(counters, level), ".") + ". "
  }

  /** Reading the number back: splitting the prefix (without its ". ") at the
      dots gives one decimal numeral per level, for exactly the counters up to
      the heading's level. A skipped level therefore shows up as a 0. */
  lemma NumberPrefixRoundTrip(counters: seq<nat>, level: nat)
    requires |counters| == Depth && 1 <= level <= Depth
    ensures var prefix := NumberPrefix(counters, level);
      var parts := SplitOn(prefix[..|prefix| - 2], '.');
      && |parts| == level
      && forall i :: 0 <= i < level ==>
           AllDigits(parts[i]) && ParseDigits(parts[i]) == counters[i] && IsNumeral(parts[i])
  {
    var parts := Components(counters, level);
    var prefix := NumberPrefix(counters, level);
    assert prefix[..|prefix| - 2] == Join(parts, ".");
    SplitOnJoin(parts, '.');
    forall i | 0 <= i < level ensures ParseDigits(parts[i]) == counters[i] {
      ParseNatToString(counters[i]);
    }
  }

  /** Headings at levels 1, 2, 2, 1, 3 leave the counters 1, 1.1, 1.2, 2
      and 2.0.1: the third level follows a level-1 heading directly, so its
      second component stays 0. */
  lemma NumberingExample()
    ensures var c1 := Bump(Zeros, 1);
      var c2 := Bump(c1, 2);
      var c3 := Bump(c2, 2);
      var c4 := Bump(c3, 1);
      var c5 := Bump(c4, 3);
      && c1[..1] == [1]
      && c2[..2] == [1, 1]
      && c3[..2] == [1, 2]
      && c4[..1] == [2]
      && c5[..3] == [2, 0, 1]
  {
    var c1 := Bump(Zeros, 1);
    assert c1[..1] == [1];
    var c2 := Bump(c1, 2);
    assert c2[..2] == [1, 1];
    var c3 := Bump(c2, 2);
    assert c3[..2] == [1, 2];
    var c4 := Bump(c3, 1);
    assert c4[..1] == [2];
    var c5 := Bump(c4, 3);
    assert c5[..3] == [c4[0], c4[1], 1];
  }

  /** The number of the heading 2.0.1 as printed. */
  lemma SkippedLevelPrefix(counters: seq<nat>)
    requires |counters| == Depth && counters[..3] == [2, 0, 1]
    ensures NumberPrefix(counters, 3) == "2.0.1. "
  {
    assert NatToString(2) == "2" && NatToString(0) == "0" && NatToString(1) == "1";
    assert Components(counters, 3) == ["2", "0", "1"];
    assert Join(["2", "0", "1"], ".") == "2" + "." + Join(["0", "1"], ".");
    assert Join(["0", "1"], ".") == "0" + "." + Join(["1"], ".");
  }

  // ---------------------------------------------------------- body blocks

  predicate LevelsInRange(blocks: seq<Block>) {
    forall b :: b in blocks && b.Section? ==> 1 <= b.level <= Depth
  }

  /** A heading: the counters are bumped, the title is wrapped with the
      number's length as indent, and the number is written over the leading
      padding of the first line, which is exactly as long as the number. */
  function RenderHeading(counters: seq<nat>, level: nat, title: string): (r: (seq<string>, seq<nat>))
    requires |counters| == Depth && 1 <= level <= Depth
    ensures |r.1| == Depth
    ensures var prefix := NumberPrefix(r.1, level);
      var wrapped := WrapText(title, |prefix|, RfcCols);
      && |r.0| == |wrapped|
      && wrapped[0][..|prefix|] == Blank(|prefix|)
      && r.0[0] == prefix + wrapped[0][|prefix|..]
      && r.0[1..] == wrapped[1..]
  {
    var next := Bump(counters, level);
    var prefix := NumberPrefix(next, level);
    var wrapped := WrapText(title, |prefix|, RfcCols);
    assert Blank(|prefix| - 1) + " " == Blank(|prefix|);
    ([prefix + Substring(wrapped[0], |prefix|)] + wrapped[1..], next)
  }

  /** The counters after one block: a heading bumps its level. */
  function Step(block: Block, counters: seq<nat>): (r: seq<nat>)
    requires |counters| == Depth
    requires block.Section? ==> 1 <= block.level <= Depth
    ensures |r| == Depth
  {
    if block.Section? then Bump(counters, block.level) else counters
  }

  /** `render(block)`: a heading as above; a paragraph wrapped at the body
      indent and the page width, leaving the counters alone. */
  function RenderBlock(block: Block, counters: seq<nat>): (r: (seq<string>, seq<nat>))
    requires |counters| == Depth
    requires block.Section? ==> 1 <= block.level <= Depth
    ensures |r.0| >= 1
    ensures r.1 == Step(block, counters)
    ensures block.Text? ==> r.0 == WrapText(block.content, RfcIndent, RfcCols)
  {
    match block
    case Section(level, title) => RenderHeading(counters, level, title)
    case Text(content) => (WrapText(content, RfcIndent, RfcCols), counters)
  }

  /** The body blocks rendered in order, threading the counters. */
  function RenderBlocks(blocks: seq<Block>, counters: seq<nat>): (groups: seq<seq<string>>)
    requires |counters| == Depth && LevelsInRange(blocks)
    ensures |groups| == |blocks|
  {
    if |blocks| == 0 then []
    else
      var (lines, next) := RenderBlock(blocks[0], counters);
      [lines] + RenderBlocks(blocks[1..], next)
  }

  /** The counters after the given blocks, with no rendering involved. */
  function CountersAfter(blocks: seq<Block>, counters: seq<nat>): (r: seq<nat>)
    requires |counters| == Depth && LevelsInRange(blocks)
    ensures |r| == Depth
  {
    if |blocks| == 0 then counters else CountersAfter(blocks[1..], Step(blocks[0], counters))
  }

  /** Body group `i` is block `i` rendered with the counters left by the
      blocks before it. */
  lemma {:induction false} RenderBlocksInContext(blocks: seq<Block>, counters: seq<nat>, i: nat)
    requires |counters| == Depth && LevelsInRange(blocks)
    requires i < |blocks|
    ensures RenderBlocks(blocks, counters)[i] == RenderBlock(blocks[i], CountersAfter(blocks[..i], counters)).0
    decreases i
  {
    if i > 0 {
      RenderBlocksTail(blocks, counters, i);
      RenderBlocksInContext(blocks[1..], Step(blocks[0], counters), i - 1);
      InContextStep(blocks, counters, i);
    } else {
      assert blocks[..0] == [];
    }
  }

  /** Block `i` rendered in the context left by its predecessors, given
      the same fact for the blocks after the first. */
  lemma InContextStep(blocks: seq<Block>, counters: seq<nat>, i: nat)
    requires |counters| == Depth && LevelsInRange(blocks)
    requires 0 < i < |blocks| && LevelsInRange(blocks[1..])
    requires var next := Step(blocks[0], counters);
      RenderBlocks(blocks[1..], next)[i - 1] == RenderBlock(blocks[1..][i - 1], CountersAfter(blocks[1..][..i - 1], next)).0
    requires RenderBlocks(blocks, counters)[i] == RenderBlocks(blocks[1..], Step(blocks[0], counters))[i - 1]
    requires CountersAfter(blocks[..i], counters) == CountersAfter(blocks[1..][..i - 1], Step(blocks[0], counters))
    ensures RenderBlocks(blocks, counters)[i] == RenderBlock(blocks[i], CountersAfter(blocks[..i], counters)).0
  {
    var next := Step(blocks[0], counters);
    var rest := blocks[1..];
    SameRendering(rest[i - 1], blocks[i], CountersAfter(rest[..i - 1], next),
                  CountersAfter(blocks[..i], counters));
  }

  lemma SameRendering(a: Block, b: Block, ca: seq<nat>, cb: seq<nat>)
    requires a == b && ca == cb && |ca| == Depth
    requires a.Section? ==> 1 <= a.level <= Depth
    ensures RenderBlock(a, ca).0 == RenderBlock(b, cb).0
  {
  }

  /** Past the first block, rendering and counting go on from the counters
      that block leaves. */
  lemma RenderBlocksTail(blocks: seq<Block>, counters: seq<nat>, i: nat)
    requires |counters| == Depth && LevelsInRange(blocks)
    requires 0 < i < |blocks|
    ensures LevelsInRange(blocks[1..])
    ensures RenderBlocks(blocks, counters)[i] == RenderBlocks(blocks[1..], Step(blocks[0], counters))[i - 1]
    ensures CountersAfter(blocks[..i], counters) == CountersAfter(blocks[1..][..i - 1], Step(blocks[0], counters))
  {
    assert forall b :: b in blocks[1..] ==> b in blocks;
    assert blocks[..i][1..] == blocks[1..][..i - 1];
    assert blocks[..i][0] == blocks[0];
  }

  /** The boilerplate groups: the trust200902 paragraphs for that IPR
      variant and none for any other value. */
  function LegalGroups(ipr: string, literals: Literals): (legal: seq<seq<string>>)
    ensures ipr == "trust200902" ==> legal == literals.trust200902
    ensures ipr != "trust200902" ==> legal == []
  {
    if ipr == "trust200902" then literals.trust200902 else []
  }

  /** The groups before the body, in page order: the front matter, the
      abstract, the boilerplate and the table-of-contents placeholder. */
  function Preamble(doc: Document, dates: Dates, literals: Literals): (head: seq<seq<string>>)
    ensures var legal := LegalGroups(doc.meta.ipr, literals);
      && |head| == 3 + |legal|
      && head[0] == FrontMatter(doc.meta, dates)
      && head[1] == AbstractGroup(doc.abstractText)
      && head[2..2 + |legal|] == legal
      && head[2 + |legal|] == literals.toc
  {
    var legal := LegalGroups(doc.meta.ipr, literals);
    var head := [FrontMatter(doc.meta, dates), AbstractGroup(doc.abstractText)] + legal + [literals.toc];
    assert head[2..2 + |legal|] == legal;
    head
  }

  /** All groups of the document: the preamble, then one group per body
      block. */
  function Groups(doc: Document, dates: Dates, literals: Literals): (groups: seq<seq<string>>)
    requires LevelsInRange(doc.blocks)
    ensures |groups| == |Preamble(doc, dates, literals)| + |doc.blocks|
    ensures groups[..|Preamble(doc, dates, literals)|] == Preamble(doc, dates, literals)
  {
    var head := Preamble(doc, dates, literals);
    var groups := head + RenderBlocks(doc.blocks, Zeros);
    assert groups[..|head|] == head;
    groups
  }

  /** The group of the `i`-th body block is that block rendered with the
      section counters left by the blocks before it, counted from zero. */
  lemma GroupOfBlock(doc: Document, dates: Dates, literals: Literals, i: nat)
    requires LevelsInRange(doc.blocks) && i < |doc.blocks|
    ensures Groups(doc, dates, literals)[|Preamble(doc, dates, literals)| + i]
         == RenderBlock(doc.blocks[i], CountersAfter(doc.blocks[..i], Zeros)).0
  {
    RenderBlocksInContext(doc.blocks, Zeros, i);
  }

  // ------------------------------------------------------- header, footer

  /** The running header: the abbreviated title centred, then
      "Internet-Draft " at the left and the month at the right; the later
      overlays win where they overlap the title. */
  function PageHeader(abbrev: string, month: string): (header: string)
    ensures |abbrev| <= RfcCols && 15 + |month| <= RfcCols ==>
      var start := (RfcCols - |abbrev|) / 2;
      && |header| == RfcCols
      && header[..15] == "Internet-Draft "
      && header[RfcCols - |month|..] == month
      && (forall k :: 15 <= k < RfcCols - |month| && start <= k < start + |abbrev| ==> header[k] == abbrev[k - start])
      && forall k :: 15 <= k < RfcCols - |month| && !(start <= k < start + |abbrev|) ==> header[k] == ' '
  {
    var centred := InsertCentered(abbrev, Blank(RfcCols));
    var left := InsertLeftAligned("Internet-Draft ", centred);
    var header := InsertRightAligned(month, left);
    if |abbrev| <= RfcCols && 15 + |month| <= RfcCols then
      HeaderOverlays(abbrev, month, centred, left, header);
      header
    else
      header
  }

  lemma HeaderOverlays(abbrev: string, month: string, centred: string, left: string, header: string)
    requires |abbrev| <= RfcCols && 15 + |month| <= RfcCols
    requires centred == InsertCentered(abbrev, Blank(RfcCols))
    requires left == InsertLeftAligned("Internet-Draft ", centred)
    requires header == InsertRightAligned(month, left)
    ensures |header| == RfcCols
    ensures header[..15] == "Internet-Draft "
    ensures header[RfcCols - |month|..] == month
    ensures var start := (RfcCols - |abbrev|) / 2;
      forall k :: 15 <= k < RfcCols - |month| && start <= k < start + |abbrev| ==> header[k] == abbrev[k - start]
    ensures var start := (RfcCols - |abbrev|) / 2;
      forall k :: 15 <= k < RfcCols - |month| && !(start <= k < start + |abbrev|) ==> header[k] == ' '
  {
    var start := (RfcCols - |abbrev|) / 2;
    var blank := Blank(RfcCols);
    assert |blank| == RfcCols && AllChar(blank, ' ');
    assert && |centred| == RfcCols
           && centred[..start] == blank[..start]
           && centred[start..start + |abbrev|] == abbrev
           && centred[start + |abbrev|..] == blank[start + |abbrev|..];
    BlankAround(centred, blank, start, |abbrev|);
    assert |left| == RfcCols && left[15..] == centred[15..];
    assert |header| == RfcCols && header[..RfcCols - |month|] == left[..RfcCols - |month|];
    assert header[..15] == left[..15];
    OverlaidMiddle(abbrev, centred, left, header, start, RfcCols - |month|);
  }

  /** What an overlay leaves of a blank line around it is still blank. */
  lemma BlankAround(c: string, blank: string, start: nat, len: nat)
    requires AllChar(blank, ' ') && |c| == |blank| && start + len <= |c|
    requires c[..start] == blank[..start] && c[start + len..] == blank[start + len..]
    ensures AllChar(c[..start], ' ') && AllChar(c[start + len..], ' ')
  {
    forall k | 0 <= k < |c| && !(start <= k < start + len)
      ensures c[k] == ' '
    {
      if k < start {
        assert c[k] == c[..start][k] == blank[..start][k] == blank[k];
      } else {
        assert c[k] == c[start + len..][k - start - len] == blank[start + len..][k - start - len] == blank[k];
      }
    }
  }

  /** Between the two overlays the header shows the centred title on a
      blank background. */
  lemma OverlaidMiddle(abbrev: string, centred: string, left: string, header: string,
                       start: nat, right: nat)
    requires |centred| == |left| == |header| == RfcCols
    requires start + |abbrev| <= RfcCols && centred[start..start + |abbrev|] == abbrev
    requires AllChar(centred[..start], ' ') && AllChar(centred[start + |abbrev|..], ' ')
    requires left[15..] == centred[15..]
    requires right <= RfcCols && header[..right] == left[..right]
    ensures forall k :: 15 <= k < right && start <= k < start + |abbrev| ==> header[k] == abbrev[k - start]
    ensures forall k :: 15 <= k < right && !(start <= k < start + |abbrev|) ==> header[k] == ' '
  {
    forall k | 15 <= k < right && start <= k < start + |abbrev|
      ensures header[k] == abbrev[k - start]
    {
      OverlaidChar(abbrev, centred, left, header, start, right, k);
    }
    forall k | 15 <= k < right && !(start <= k < start + |abbrev|)
      ensures header[k] == ' '
    {
      OverlaidSpace(abbrev, centred, left, header, start, right, k);
    }
  }

  /** Position `k` of the header is blank when no overlay and not the title
      covers it. */
  lemma OverlaidSpace(abbrev: string, centred: string, left: string, header: string,
                      start: nat, right: nat, k: nat)
    requires |centred| == |left| == |header| == RfcCols
    requires start + |abbrev| <= RfcCols
    requires AllChar(centred[..start], ' ') && AllChar(centred[start + |abbrev|..], ' ')
    requires left[15..] == centred[15..]
    requires right <= RfcCols && header[..right] == left[..right]
    requires 15 <= k < right && !(start <= k < start + |abbrev|)
    ensures header[k] == ' '
  {
    assert header[k] == header[..right][k];
    assert left[k] == left[15..][k - 15];
    if k < start {
      assert centred[k] == centred[..start][k];
    } else {
      assert centred[k] == centred[start + |abbrev|..][k - start - |abbrev|];
    }
  }

  /** Position `k` of the header shows the title when neither the left nor
      the right overlay covers it. */
  lemma OverlaidChar(abbrev: string, centred: string, left: string, header: string,
                     start: nat, right: nat, k: nat)
    requires |centred| == |left| == |header| == RfcCols
    requires start + |abbrev| <= RfcCols && centred[start..start + |abbrev|] == abbrev
    requires left[15..] == centred[15..]
    requires right <= RfcCols && header[..right] == left[..right]
    requires 15 <= k < right && start <= k < start + |abbrev|
    ensures header[k] == abbrev[k - start]
  {
    assert header[k] == header[..right][k];
    assert left[k] == left[15..][k - 15];
    assert centred[k] == centred[start..start + |abbrev|][k - start];
  }

  predicate IsInitialChar(c: char) {
    'A' <= c <= 'Z' || c == '.'
  }

  /** The length of the leading run of capitals and dots. */
  function InitialRun(s: string): (n: nat)
    ensures n <= |s|
    ensures forall k :: 0 <= k < n ==> IsInitialChar(s[k])
    ensures n < |s| ==> !IsInitialChar(s[n])
  {
    if |s| > 0 && IsInitialChar(s[0]) then 1 + InitialRun(s[1..]) else 0
  }

  /** `ins.replace(/^[A-Z.]*\s+/, "")`: drops the leading initials when
      whitespace follows them; otherwise the name is unchanged. */
  function Surname(ins: string): (r: string)
    ensures |r| <= |ins| && r == ins[|ins| - |r|..]
    ensures r == ins <==> InitialRun(ins) == |ins| || !IsWhitespace(ins[InitialRun(ins)])
    ensures r != ins ==>
      && InitialRun(ins) < |ins| - |r|
      && (forall j :: InitialRun(ins) <= j < |ins| - |r| ==> IsWhitespace(ins[j]))
      && (|r| == 0 || !IsWhitespace(r[0]))
  {
    var e := WhitespaceEnd(ins, InitialRun(ins));
    if e == InitialRun(ins) then ins else ins[e..]
  }

  /** Initials, whitespace and a surname give the surname. */
  lemma SurnameOfInitials(initials: string, gap: string, surname: string)
    requires forall k :: 0 <= k < |initials| ==> IsInitialChar(initials[k])
    requires |gap| >= 1 && AllWhitespace(gap)
    requires |surname| == 0 || !IsWhitespace(surname[0])
    ensures Surname(initials + gap + surname) == surname
  {
    var ins := initials + gap + surname;
    var k := |initials|;
    var e := k + |gap|;
    InitialRunOf(initials, gap + surname);
    assert ins == initials + (gap + surname);
    forall j | k <= j < e ensures IsWhitespace(ins[j]) {
      assert ins[j] == gap[j - k];
    }
    assert e < |ins| ==> ins[e] == surname[0];
    WhitespaceEndAt(ins, k, e);
    assert ins[e..] == surname;
  }

  lemma {:induction false} InitialRunOf(initials: string, rest: string)
    requires forall k :: 0 <= k < |initials| ==> IsInitialChar(initials[k])
    requires |rest| >= 1 && IsWhitespace(rest[0])
    ensures InitialRun(initials + rest) == |initials|
  {
    if |initials| == 0 {
      assert initials + rest == rest;
    } else {
      assert (initials + rest)[1..] == initials[1..] + rest;
      InitialRunOf(initials[1..], rest);
    }
  }

  /** The author name of the footer: the surname of a single author, "A & B"
      for two, and the first surname with ", et al." for more. */
  function ShortName(authors: seq<Author>): (name: string)
    requires |authors| >= 1
    ensures StartsWith(name, Surname(authors[0].ins))
    ensures |authors| == 2 ==> name[|Surname(authors[0].ins)|..] == " & " + Surname(authors[1].ins)
    ensures |authors| > 2 ==> name[|Surname(authors[0].ins)|..] == ", et al."
    ensures |authors| == 1 ==> |name| == |Surname(authors[0].ins)|
  {
    var first := Surname(authors[0].ins);
    if |authors| == 1 then first
    else if |authors| == 2 then
      var name := first + (" & " + Surname(authors[1].ins));
      assert name[..|first|] == first && name[|first|..] == " & " + Surname(authors[1].ins);
      name
    else
      var name := first + ", et al.";
      assert name[..|first|] == first && name[|first|..] == ", et al.";
      name
  }

  /** Beyond the first author, a long author list only counts by its length. */
  lemma ShortNameOfLongLists(a: seq<Author>, b: seq<Author>)
    requires |a| > 2 && |b| > 2 && a[0] == b[0]
    ensures ShortName(a) == ShortName(b)
  {
  }

  /** The footer without its page number: the short author name (`ShortName`) at the left
      and "Expires <date>" centred over it. */
  function FooterBase(name: string, expires: string): (footer: string)
    ensures var notice := "Expires " + expires;
      var start := (RfcCols - |notice|) / 2;
      |name| <= RfcCols && |notice| <= RfcCols ==>
        && |footer| == RfcCols
        && footer[start..start + |notice|] == notice
        && (forall k :: 0 <= k < |name| && k < start ==> footer[k] == name[k])
        && forall k :: 0 <= k < RfcCols && !(start <= k < start + |notice|) ==>
             footer[k] == (if k < |name| then name[k] else ' ')
  {
    var notice := "Expires " + expires;
    var left := InsertLeftAligned(name, Blank(RfcCols));
    var footer := InsertCentered(notice, left);
    CentreOverLeft(name, notice, left, footer);
    footer
  }

  lemma CentreOverLeft(name: string, notice: string, left: string, footer: string)
    requires left == InsertLeftAligned(name, Blank(RfcCols))
    requires footer == InsertCentered(notice, left)
    ensures var start := (RfcCols - |notice|) / 2;
      |name| <= RfcCols && |notice| <= RfcCols ==>
        && |footer| == RfcCols
        && footer[start..start + |notice|] == notice
        && (forall k :: 0 <= k < |name| && k < start ==> footer[k] == name[k])
        && forall k :: 0 <= k < RfcCols && !(start <= k < start + |notice|) ==>
             footer[k] == (if k < |name| then name[k] else ' ')
  {
    if |name| <= RfcCols && |notice| <= RfcCols {
      var start := (RfcCols - |notice|) / 2;
      assert |left| == RfcCols && left[..|name|] == name;
      assert footer[..start] == left[..start];
      forall k | 0 <= k < |name| && k < start ensures footer[k] == name[k] {
        assert footer[k] == footer[..start][k];
        assert left[k] == left[..|name|][k];
      }
      assert AllChar(left[|name|..], ' ');
      forall k | 0 <= k < RfcCols && !(start <= k < start + |notice|)
        ensures footer[k] == (if k < |name| then name[k] else ' ')
      {
        UncoveredFooterChar(name, notice, left, footer, start, k);
      }
    }
  }

  /** Outside the notice the footer shows the name, then spaces. */
  lemma UncoveredFooterChar(name: string, notice: string, left: string, footer: string,
                            start: nat, k: nat)
    requires |name| <= RfcCols && |left| == |footer| == RfcCols
    requires left[..|name|] == name && AllChar(left[|name|..], ' ')
    requires start + |notice| <= RfcCols
    requires footer[..start] == left[..start]
    requires footer[start + |notice|..] == left[start + |notice|..]
    requires k < RfcCols && !(start <= k < start + |notice|)
    ensures footer[k] == (if k < |name| then name[k] else ' ')
  {
    if k < start {
      assert footer[k] == footer[..start][k];
    } else {
      assert footer[k] == footer[start + |notice|..][k - start - |notice|];
    }
    if k < |name| {
      assert left[k] == left[..|name|][k];
    } else {
      assert left[k] == left[|name|..][k - |name|];
    }
  }

  /** `renderPageNumber`: the page number in brackets; the number reads back
      from between the brackets. */
  function PageTag(page: nat): (tag: string)
    ensures |tag| >= 8 && tag[..6] == "[Page " && tag[|tag| - 1] == ']'
    ensures AllDigits(tag[6..|tag| - 1]) && ParseDigits(tag[6..|tag| - 1]) == page
    ensures IsNumeral(tag[6..|tag| - 1])
  {
    ParseNatToString(page);
    assert ("[Page " + NatToString(page) + "]")[6..|NatToString(page)| + 6] == NatToString(page);
    "[Page " + NatToString(page) + "]"
  }

  /** `makeFooter(n)`: the page tag overlaid at the right of the footer. */
  function MakeFooter(footer: string, page: nat): (line: string)
    ensures |PageTag(page)| <= |footer| ==>
      && |line| == |footer|
      && line[|footer| - |PageTag(page)|..] == PageTag(page)
      && line[..|footer| - |PageTag(page)|] == footer[..|footer| - |PageTag(page)|]
  {
    InsertRightAligned(PageTag(page), footer)
  }
}

=== FILE: strings.dfy ===
/**
 String primitives with the semantics of the JavaScript built-ins that draftr
 relies on: `split`, `join`, `indexOf`, `substr`, `substring`, the `\s`
 character class and decimal rendering of non-negative integers.
 Strings are sequences of Unicode scalar values.
 */
module Strings {

  function Max(a: int, b: int): int { if a < b then b else a }
  function Min(a: int, b: int): int { if a < b then a else b }

  /** The characters matched by the `\s` class of a JavaScript regular expression. */
  predicate IsWhitespace(c: char) {
    || c == ' ' || c == '\t' || c == '\n' || c == '\U{000B}' || c == '\U{000C}' || c == '\r'
    || c == '\U{00A0}' || c == '\U{1680}' || ('\U{2000}' <= c <= '\U{200A}')
    || c == '\U{2028}' || c == '\U{2029}' || c == '\U{202F}' || c == '\U{205F}'
    || c == '\U{3000}' || c == '\U{FEFF}'
  }

  predicate AllWhitespace(s: string) {
    forall k :: 0 <= k < |s| ==> IsWhitespace(s[k])
  }

  predicate NoWhitespace(s: string) {
    forall k :: 0 <= k < |s| ==> !IsWhitespace(s[k])
  }

  predicate AllChar(s: string, c: char) {
    forall k :: 0 <= k < |s| ==> s[k] == c
  }

  predicate StartsWith(s: string, prefix: string) {
    |prefix| <= |s| && s[..|prefix|] == prefix
  }

  predicate EndsWith(s: string, suffix: string) {
    |suffix| <= |s| && forall k :: 0 <= k < |suffix| ==> s[|s| - |suffix| + k] == suffix[k]
  }

  /** Text put in front keeps a suffix. */
  lemma EndsWithAfter(front: string, s: string, suffix: string)
    requires EndsWith(s, suffix)
    ensures EndsWith(front + s, suffix)
  {
    forall k | 0 <= k < |suffix| ensures (front + s)[|front + s| - |suffix| + k] == suffix[k] {
      assert (front + s)[|front| + (|s| - |suffix| + k)] == s[|s| - |suffix| + k];
    }
  }

  /** Text put behind extends a suffix. */
  lemma EndsWithBefore(s: string, suffix: string, back: string)
    requires EndsWith(s, suffix)
    ensures EndsWith(s + back, suffix + back)
  {
    var t := suffix + back;
    forall k | 0 <= k < |t| ensures (s + back)[|s + back| - |t| + k] == t[k] {
      if k < |suffix| {
        assert (s + back)[|s| - |suffix| + k] == s[|s| - |suffix| + k];
      } else {
        assert (s + back)[|s| + (k - |suffix|)] == back[k - |suffix|];
      }
    }
  }

  /** `n` copies of `c`. */
  function Repeat(c: char, n: nat): (r: string)
    ensures |r| == n && AllChar(r, c)
  {
    if n == 0 then "" else Repeat(c, n - 1) + [c]
  }

  /** `Array.prototype.join`: the parts with `sep` between neighbours. */
  function Join(parts: seq<string>, sep: string): string
  {
    if |parts| == 0 then ""
    else if |parts| == 1 then parts[0]
    else parts[0] + sep + Join(parts[1..], sep)
  }

  /** Joining two non-empty lists is joining each and putting `sep` between. */
  lemma {:induction false} JoinAppend(xs: seq<string>, ys: seq<string>, sep: string)
    requires |xs| >= 1 && |ys| >= 1
    ensures Join(xs + ys, sep) == Join(xs, sep) + sep + Join(ys, sep)
  {
    if |xs| == 1 {
      assert (xs + ys)[1..] == ys;
    } else {
      JoinAppend(xs[1..], ys, sep);
      assert (xs + ys)[1..] == xs[1..] + ys;
    }
  }

  /** `String.prototype.split` with a one-character separator. */
  function SplitOn(s: string, c: char): (r: seq<string>)
    ensures |r| >= 1
    ensures forall i :: 0 <= i < |r| ==> c !in r[i]
  {
    if |s| == 0 then [""]
    else if s[0] == c then [""] + SplitOn(s[1..], c)
    else
      var rest := SplitOn(s[1..], c);
      [[s[0]] + rest[0]] + rest[1..]
  }

  /** Joining the pieces of a split with the separator gives the string back. */
  lemma {:induction false} JoinSplitOn(s: string, c: char)
    ensures Join(SplitOn(s, c), [c]) == s
  {
    if |s| == 0 {
    } else if s[0] == c {
      JoinSplitOn(s[1..], c);
      var rest := SplitOn(s[1..], c);
      assert SplitOn(s, c) == [""] + rest;
      assert Join([""] + rest, [c]) == "" + [c] + Join(rest, [c]) by {
        assert ([""] + rest)[1..] == rest;
      }
      assert s == [c] + s[1..];
    } else {
      JoinSplitOn(s[1..], c);
      var rest := SplitOn(s[1..], c);
      JoinConsHead([s[0]], rest, [c]);
      assert s == [s[0]] + s[1..];
    }
  }

  /** A joined list ends with its last part. */
  lemma JoinEndsWithLast(parts: seq<string>, sep: string)
    requires |parts| >= 1
    ensures EndsWith(Join(parts, sep), parts[|parts| - 1])
  {
    var n := |parts| - 1;
    assert EndsWith(parts[n], parts[n]);
    if n > 0 {
      assert parts == parts[..n] + [parts[n]];
      JoinAppend(parts[..n], [parts[n]], sep);
      EndsWithAfter(Join(parts[..n], sep) + sep, parts[n], parts[n]);
    }
  }

  /** Prepending text to the first part prepends it to the joined string. */
  lemma JoinConsHead(x: string, parts: seq<string>, sep: string)
    requires |parts| >= 1
    ensures Join([x + parts[0]] + parts[1..], sep) == x + Join(parts, sep)
  {
    var ps := [x + parts[0]] + parts[1..];
    if |parts| == 1 {
      assert ps == [x + parts[0]];
    } else {
      assert ps[1..] == parts[1..];
    }
  }

  /** Joining a part in front of a non-empty list puts `sep` after it. */
  lemma JoinCons(x: string, parts: seq<string>, sep: string)
    requires |parts| >= 1
    ensures Join([x] + parts, sep) == x + sep + Join(parts, sep)
  {
    assert ([x] + parts)[1..] == parts;
  }

  /** Splitting text that starts with a separator-free piece. */
  lemma {:induction false} SplitOnPrefix(x: string, rest: string, c: char)
    requires c !in x
    ensures SplitOn(x + rest, c) == [x + SplitOn(rest, c)[0]] + SplitOn(rest, c)[1..]
  {
    if |x| == 0 {
      assert x + rest == rest;
      var r := SplitOn(rest, c);
      assert x + r[0] == r[0];
      assert [r[0]] + r[1..] == r;
    } else {
      assert (x + rest)[0] == x[0];
      assert (x + rest)[1..] == x[1..] + rest;
      assert x[0] != c by { assert x[0] in x; }
      SplitOnPrefix(x[1..], rest, c);
      assert [x[0]] + (x[1..] + SplitOn(rest, c)[0]) == x + SplitOn(rest, c)[0] by {
        assert x == [x[0]] + x[1..];
      }
    }
  }

  /** Splitting a join of separator-free parts gives the parts back. */
  lemma {:induction false} SplitOnJoin(parts: seq<string>, c: char)
    requires |parts| >= 1
    requires forall i :: 0 <= i < |parts| ==> c !in parts[i]
    ensures SplitOn(Join(parts, [c]), c) == parts
  {
    if |parts| == 1 {
      SplitOnPrefix(parts[0], "", c);
      assert parts[0] + "" == parts[0];
    } else {
      SplitOnJoin(parts[1..], c);
      var tail := Join(parts[1..], [c]);
      assert Join(parts, [c]) == parts[0] + ([c] + tail);
      SplitOnPrefix(parts[0], [c] + tail, c);
      assert ([c] + tail)[0] == c && ([c] + tail)[1..] == tail;
      assert SplitOn([c] + tail, c) == [""] + parts[1..];
      assert parts[0] + "" == parts[0];
      assert parts == [parts[0]] + parts[1..];
    }
  }

  /** The end of the run of whitespace that starts at position `k`. */
  function WhitespaceEnd(s: string, k: nat): (e: nat)
    requires k <= |s|
    ensures k <= e <= |s|
    ensures forall j :: k <= j < e ==> IsWhitespace(s[j])
    ensures e == |s| || !IsWhitespace(s[e])
    decreases |s| - k
  {
    if k < |s| && IsWhitespace(s[k]) then WhitespaceEnd(s, k + 1) else k
  }

  /** A whitespace run is determined by where it starts: any whitespace
      stretch from `k` to a non-whitespace character or the end is it. */
  lemma {:induction false} WhitespaceEndAt(s: string, k: nat, e: nat)
    requires k <= e <= |s|
    requires forall j :: k <= j < e ==> IsWhitespace(s[j])
    requires e == |s| || !IsWhitespace(s[e])
    ensures WhitespaceEnd(s, k) == e
    decreases e - k
  {
    if k < e {
      WhitespaceEndAt(s, k + 1, e);
    }
  }

  /** The text after the leading run of whitespace. */
  function SkipWhitespace(s: string): (r: string)
    ensures |r| <= |s| && r == s[|s| - |r|..]
    ensures AllWhitespace(s[..|s| - |r|])
    ensures |r| == 0 || !IsWhitespace(r[0])
  {
    s[WhitespaceEnd(s, 0)..]
  }

  /** Skipping the leading whitespace of a text that starts with whitespace
      is skipping it after the first character. */
  lemma SkipStep(t: string)
    requires |t| >= 1 && IsWhitespace(t[0])
    ensures SkipWhitespace(t) == SkipWhitespace(t[1..])
  {
    var e := WhitespaceEnd(t, 0);
    var u := t[1..];
    forall j | 0 <= j < e - 1 ensures IsWhitespace(u[j]) {
      assert u[j] == t[j + 1];
    }
    assert e - 1 < |u| ==> u[e - 1] == t[e];
    WhitespaceEndAt(u, 0, e - 1);
    assert u[e - 1..] == t[e..];
  }

  /** The characters of `s` that `drop` does not hold of, in order. */
  function Without(s: string, drop: char -> bool): string
  {
    if |s| == 0 then "" else (if drop(s[0]) then "" else [s[0]]) + Without(s[1..], drop)
  }

  lemma {:induction false} WithoutAppend(a: string, b: string, drop: char -> bool)
    ensures Without(a + b, drop) == Without(a, drop) + Without(b, drop)
  {
    if |a| == 0 {
      assert a + b == b;
    } else {
      var head := if drop(a[0]) then "" else [a[0]];
      assert (a + b)[0] == a[0];
      assert (a + b)[1..] == a[1..] + b;
      assert Without(a + b, drop) == head + Without(a[1..] + b, drop);
      WithoutAppend(a[1..], b, drop);
      StringAssoc(head, Without(a[1..], drop), Without(b, drop));
    }
  }

  /** Nothing is left of a text whose every character is dropped. */
  lemma {:induction false} WithoutNone(s: string, drop: char -> bool)
    requires forall k :: 0 <= k < |s| ==> drop(s[k])
    ensures Without(s, drop) == ""
  {
    if |s| > 0 {
      assert drop(s[0]);
      WithoutNone(s[1..], drop);
    }
  }

  /** The number of maximal runs of whitespace in `s`, counted at the
      character that ends each run. */
  function WhitespaceRuns(s: string): nat
  {
    if |s| == 0 then 0
    else (if IsWhitespace(s[0]) && (|s| == 1 || !IsWhitespace(s[1])) then 1 else 0) + WhitespaceRuns(s[1..])
  }

  /** A leading run of whitespace holds no kept character. */
  lemma {:induction false} LeadingRunDropped(s: string)
    requires |s| >= 1 && IsWhitespace(s[0])
    ensures Without(s, IsWhitespace) == Without(SkipWhitespace(s[1..]), IsWhitespace)
    decreases |s|
  {
    var t := s[1..];
    assert Without(s, IsWhitespace) == Without(t, IsWhitespace);
    if |t| > 0 && IsWhitespace(t[0]) {
      LeadingRunDropped(t);
      SkipStep(t);
    } else {
      assert WhitespaceEnd(t, 0) == 0;
    }
  }

  /** A leading run of whitespace is one run. */
  lemma {:induction false} LeadingRunCounted(s: string)
    requires |s| >= 1 && IsWhitespace(s[0])
    ensures WhitespaceRuns(s) == 1 + WhitespaceRuns(SkipWhitespace(s[1..]))
    decreases |s|
  {
    var t := s[1..];
    if |t| > 0 && IsWhitespace(t[0]) {
      assert WhitespaceRuns(s) == WhitespaceRuns(t);
      LeadingRunCounted(t);
      SkipStep(t);
    } else {
      assert WhitespaceRuns(s) == 1 + WhitespaceRuns(t);
      assert WhitespaceEnd(t, 0) == 0;
    }
  }

  /** `s.split(/\s+/)`: the pieces between maximal runs of whitespace. The first
      and last piece are empty when `s` starts or ends with whitespace. */
  function SplitWhitespace(s: string): (r: seq<string>)
    ensures |r| >= 1
    ensures forall i :: 0 <= i < |r| ==> NoWhitespace(r[i])
    ensures Join(r, "") == Without(s, IsWhitespace)
    ensures |r| == 1 + WhitespaceRuns(s)
    decreases |s|
  {
    if |s| == 0 then [""]
    else if IsWhitespace(s[0]) then
      var rest := SplitWhitespace(SkipWhitespace(s[1..]));
      LeadingRunDropped(s);
      LeadingRunCounted(s);
      assert ([""] + rest)[1..] == rest;
      [""] + rest
    else
      var rest := SplitWhitespace(s[1..]);
      JoinConsHead([s[0]], rest, "");
      [[s[0]] + rest[0]] + rest[1..]
  }

  /** `s.replace(/\s+/g, " ")`: every run of whitespace becomes one space, and
      the other characters stay as they are, in order. */
  function CollapseWhitespace(s: string): (r: string)
    ensures |r| <= |s|
    ensures forall k :: 0 <= k < |r| && IsWhitespace(r[k]) ==> r[k] == ' '
    ensures forall k :: 0 <= k < |r| - 1 ==> !(IsWhitespace(r[k]) && IsWhitespace(r[k + 1]))
    ensures (|r| > 0 && r[0] == ' ') <==> (|s| > 0 && IsWhitespace(s[0]))
    ensures Without(r, IsWhitespace) == Without(s, IsWhitespace)
    decreases |s|
  {
    if |s| == 0 then ""
    else if IsWhitespace(s[0]) then
      var rest := CollapseWhitespace(SkipWhitespace(s[1..]));
      LeadingRunDropped(s);
      WithoutAppend(" ", rest, IsWhitespace);
      " " + rest
    else
      var rest := CollapseWhitespace(s[1..]);
      WithoutAppend([s[0]], rest, IsWhitespace);
      [s[0]] + rest
  }

  /** Collapsing whitespace is the same as joining the whitespace-separated
      tokens with single spaces. */
  lemma {:induction false} CollapseIsJoinedTokens(s: string)
    ensures CollapseWhitespace(s) == Join(SplitWhitespace(s), " ")
    decreases |s|
  {
    if |s| == 0 {
    } else if IsWhitespace(s[0]) {
      var t := SkipWhitespace(s[1..]);
      CollapseIsJoinedTokens(t);
      var rest := SplitWhitespace(t);
      assert ([""] + rest)[1..] == rest;
    } else {
      CollapseIsJoinedTokens(s[1..]);
      JoinConsHead([s[0]], SplitWhitespace(s[1..]), " ");
    }
  }

  /** Skipping a whitespace run finds the text after it. */
  lemma SkipRun(ws: string, rest: string)
    requires |ws| >= 1 && AllWhitespace(ws)
    requires |rest| == 0 || !IsWhitespace(rest[0])
    ensures SkipWhitespace((ws + rest)[1..]) == rest
  {
    var t := (ws + rest)[1..];
    assert t == ws[1..] + rest;
    forall j | 0 <= j < |ws| - 1 ensures IsWhitespace(t[j]) {
      assert t[j] == ws[j + 1];
    }
    assert |ws| - 1 < |t| ==> t[|ws| - 1] == rest[0];
    WhitespaceEndAt(t, 0, |ws| - 1);
  }

  /** A text that opens with a whitespace run splits into an empty piece
      followed by the pieces of the text after the run. */
  lemma SplitAfterRun(ws: string, rest: string)
    requires |ws| >= 1 && AllWhitespace(ws)
    requires |rest| == 0 || !IsWhitespace(rest[0])
    ensures SplitWhitespace(ws + rest) == [""] + SplitWhitespace(rest)
  {
    assert (ws + rest)[0] == ws[0];
    SkipRun(ws, rest);
  }

  /** The cut after a word: a whitespace-free word, a whitespace run and the
      rest split into the word followed by the pieces of the rest. */
  lemma {:induction false} SplitAfterWord(w: string, ws: string, rest: string)
    requires NoWhitespace(w)
    requires |ws| >= 1 && AllWhitespace(ws)
    requires |rest| == 0 || !IsWhitespace(rest[0])
    ensures SplitWhitespace(w + ws + rest) == [w] + SplitWhitespace(rest)
    decreases |w|
  {
    if |w| == 0 {
      assert w + ws + rest == ws + rest;
      SplitAfterRun(ws, rest);
    } else {
      var s := w + ws + rest;
      assert s[0] == w[0] && !IsWhitespace(s[0]);
      assert s[1..] == w[1..] + ws + rest;
      SplitAfterWord(w[1..], ws, rest);
      assert [w[0]] + w[1..] == w;
    }
  }

  /** A text that opens with a whitespace run collapses to one space
      followed by the collapsed text after the run. */
  lemma CollapseAfterRun(ws: string, rest: string)
    requires |ws| >= 1 && AllWhitespace(ws)
    requires |rest| == 0 || !IsWhitespace(rest[0])
    ensures CollapseWhitespace(ws + rest) == " " + CollapseWhitespace(rest)
  {
    SplitAfterRun(ws, rest);
    CollapseIsJoinedTokens(ws + rest);
    CollapseIsJoinedTokens(rest);
    JoinCons("", SplitWhitespace(rest), " ");
    assert "" + " " == " ";
  }

  /** A word and the whitespace run after it collapse to the word and one
      space, followed by the collapsed rest. */
  lemma CollapseAfterWord(w: string, ws: string, rest: string)
    requires NoWhitespace(w)
    requires |ws| >= 1 && AllWhitespace(ws)
    requires |rest| == 0 || !IsWhitespace(rest[0])
    ensures CollapseWhitespace(w + ws + rest) == w + " " + CollapseWhitespace(rest)
  {
    SplitAfterWord(w, ws, rest);
    CollapseIsJoinedTokens(w + ws + rest);
    CollapseIsJoinedTokens(rest);
    JoinCons(w, SplitWhitespace(rest), " ");
  }

  lemma StringAssoc(a: string, b: string, c: string)
    ensures a + b + c == a + (b + c)
  {
  }

  /** Text without whitespace is left as it is. */
  lemma {:induction false} CollapseSingleWord(w: string)
    requires NoWhitespace(w)
    ensures CollapseWhitespace(w) == w
  {
    if |w| > 0 {
      CollapseSingleWord(w[1..]);
      assert w == [w[0]] + w[1..];
    }
  }

  /** Text whose whitespace is single spaces only: every whitespace
      character is a space, and no whitespace follows it. */
  predicate SingleSpaced(s: string) {
    |s| == 0 || (
      && (IsWhitespace(s[0]) ==> s[0] == ' ' && (|s| == 1 || !IsWhitespace(s[1])))
      && SingleSpaced(s[1..]))
  }

  /** Collapsing leaves text whose whitespace is already single spaces unchanged. */
  lemma {:induction false} CollapseNormalText(s: string)
    requires SingleSpaced(s)
    ensures CollapseWhitespace(s) == s
    decreases |s|
  {
    if |s| > 0 {
      var t := s[1..];
      CollapseNormalText(t);
      assert s == [s[0]] + t;
      if IsWhitespace(s[0]) {
        assert |t| == 0 || !IsWhitespace(t[0]);
        assert AllWhitespace(" ");
        CollapseAfterRun(" ", t);
      } else {
        CollapseKept(s[0], t);
      }
    }
  }

  /** A character outside the whitespace class is kept as it is. */
  lemma CollapseKept(c: char, t: string)
    requires !IsWhitespace(c)
    ensures CollapseWhitespace([c] + t) == [c] + CollapseWhitespace(t)
  {
    assert ([c] + t)[0] == c && ([c] + t)[1..] == t;
  }

  /** The end of the run of spaces that starts at position `k`. */
  function SpacesEnd(s: string, k: nat): (e: nat)
    requires k <= |s|
    ensures k <= e <= |s|
    ensures forall j :: k <= j < e ==> s[j] == ' '
    ensures e == |s| || s[e] != ' '
    decreases |s| - k
  {
    if k < |s| && s[k] == ' ' then SpacesEnd(s, k + 1) else k
  }

  /** The start of the run of spaces that ends at position `k`. */
  function SpacesStart(s: string, k: nat): (b: nat)
    requires k <= |s|
    ensures b <= k
    ensures forall j :: b <= j < k ==> s[j] == ' '
    ensures b == 0 || s[b - 1] != ' '
  {
    if k > 0 && s[k - 1] == ' ' then SpacesStart(s, k - 1) else k
  }

  /** A run of spaces is determined by where it starts. */
  lemma {:induction false} SpacesEndAt(s: string, k: nat, e: nat)
    requires k <= e <= |s|
    requires forall j :: k <= j < e ==> s[j] == ' '
    requires e == |s| || s[e] != ' '
    ensures SpacesEnd(s, k) == e
    decreases e - k
  {
    if k < e {
      SpacesEndAt(s, k + 1, e);
    }
  }

  // `s.replace(/^[ ]*/, "")`: drops the leading run of spaces.
  function TrimLeadingSpaces(s: string): (r: string)
    ensures |r| <= |s| && r == s[|s| - |r|..]
    ensures AllChar(s[..|s| - |r|], ' ')
    ensures |r| == 0 || r[0] != ' '
  {
    s[SpacesEnd(s, 0)..]
  }

  // `s.replace(/[ ]*$/, "")`: drops the trailing run of spaces.
  function TrimTrailingSpaces(s: string): (r: string)
    ensures |r| <= |s| && r == s[..|r|]
    ensures AllChar(s[|r|..], ' ')
    ensures |r| == 0 || r[|r| - 1] != ' '
  {
    s[..SpacesStart(s, |s|)]
  }

  predicate IsSpace(c: char) { c == ' ' }

  /** Trimming leading spaces drops no character other than a space. */
  lemma TrimLeadingKeepsText(s: string)
    ensures Without(TrimLeadingSpaces(s), IsSpace) == Without(s, IsSpace)
  {
    var r := TrimLeadingSpaces(s);
    var cut := s[..|s| - |r|];
    assert s == cut + r;
    WithoutAppend(cut, r, IsSpace);
    WithoutNone(cut, IsSpace);
  }

  /** Trimming trailing spaces drops no character other than a space. */
  lemma TrimTrailingKeepsText(s: string)
    ensures Without(TrimTrailingSpaces(s), IsSpace) == Without(s, IsSpace)
  {
    var r := TrimTrailingSpaces(s);
    var cut := s[|r|..];
    assert s == r + cut;
    WithoutAppend(r, cut, IsSpace);
    WithoutNone(cut, IsSpace);
  }

  /** `sub` occurs in `s` starting at index `k`. */
  predicate OccursAt(s: string, sub: string, k: int) {
    0 <= k && k + |sub| <= |s| && s[k..k + |sub|] == sub
  }

  function IndexOfFrom(s: string, sub: string, k: nat): (r: int)
    requires k <= |s|
    ensures r == -1 || (k <= r && OccursAt(s, sub, r))
    ensures forall j :: k <= j && (r == -1 || j < r) ==> !OccursAt(s, sub, j)
    decreases |s| - k
  {
    if k + |sub| > |s| then -1
    else if s[k..k + |sub|] == sub then k
    else if k == |s| then -1
    else IndexOfFrom(s, sub, k + 1)
  }

  /** `s.indexOf(sub, position)`: the first occurrence of `sub` at or after
      `position` (clamped to the string), or -1. */
  function IndexOf(s: string, sub: string, position: int): (r: int)
    ensures r == -1 || (Min(Max(position, 0), |s|) <= r && OccursAt(s, sub, r))
    ensures forall j :: Min(Max(position, 0), |s|) <= j && (r == -1 || j < r) ==> !OccursAt(s, sub, j)
  {
    IndexOfFrom(s, sub, Min(Max(position, 0), |s|))
  }

  /** `s.substr(start, length)`: a negative start counts from the end, and the
      length is clamped to what is left of the string. */
  function Substr(s: string, start: int, length: int): (r: string)
    ensures |r| <= |s|
  {
    var a := if start < 0 then Max(|s| + start, 0) else Min(start, |s|);
    var n := Min(Max(length, 0), |s| - a);
    s[a..a + n]
  }

  /** `s.substr(start)`: everything from `start` on. */
  function SubstrFrom(s: string, start: int): string
  {
    Substr(s, start, |s|)
  }

  /** `s.substring(start)`: the start index is clamped to the string. */
  function Substring(s: string, start: int): (r: string)
    ensures 0 <= start <= |s| ==> r == s[start..]
  {
    s[Min(Max(start, 0), |s|)..]
  }

  predicate IsDigit(c: char) { '0' <= c <= '9' }

  predicate AllDigits(s: string) {
    forall k :: 0 <= k < |s| ==> IsDigit(s[k])
  }

  function DigitChar(d: nat): (c: char)
    requires d < 10
    ensures IsDigit(c) && c as int - '0' as int == d
  {
    (d + '0' as int) as char
  }

  /** A decimal numeral in the form JavaScript prints: digits, with no
      leading zero unless the numeral is "0" itself. */
  predicate IsNumeral(s: string) {
    |s| >= 1 && AllDigits(s) && (s[0] == '0' ==> |s| == 1)
  }

  /** Decimal rendering of a non-negative integer, as JavaScript prints it. */
  function NatToString(n: nat): (r: string)
    ensures |r| >= 1 && AllDigits(r)
    ensures '.' !in r && ' ' !in r
    ensures r[0] == '0' <==> n == 0
    ensures IsNumeral(r)
  {
    if n < 10 then [DigitChar(n)] else NatToString(n / 10) + [DigitChar(n % 10)]
  }

  /** Reads a string of decimal digits as a number. */
  function ParseDigits(s: string): nat
    requires AllDigits(s)
  {
    if |s| == 0 then 0
    else ParseDigits(s[..|s| - 1]) * 10 + (s[|s| - 1] as int - '0' as int)
  }

  /** Reading back a rendered number gives the number. */
  lemma {:induction false} ParseNatToString(n: nat)
    ensures ParseDigits(NatToString(n)) == n
  {
    if n >= 10 {
      ParseNatToString(n / 10);
      var s := NatToString(n);
      assert s[..|s| - 1] == NatToString(n / 10);
    }
  }

  /** A numeral with a non-zero first digit reads as a positive number. */
  lemma {:induction false} ParseDigitsPositive(s: string)
    requires |s| >= 1 && AllDigits(s) && s[0] != '0'
    ensures ParseDigits(s) >= 1
  {
    if |s| > 1 {
      ParseDigitsPositive(s[..|s| - 1]);
    }
  }

  /** A numeral is the rendering of the number it reads as: rendering is
      the only way to write a number in this form. */
  lemma {:induction false} NumeralRoundTrip(s: string)
    requires IsNumeral(s)
    ensures NatToString(ParseDigits(s)) == s
  {
    var n := ParseDigits(s);
    var last := s[|s| - 1];
    if |s| == 1 {
      assert s[..0] == "" && ParseDigits(s[..0]) == 0;
      assert n == last as int - '0' as int;
      assert s == [DigitChar(n)];
    } else {
      var front := s[..|s| - 1];
      assert front[0] == s[0];
      ParseDigitsPositive(front);
      NumeralRoundTrip(front);
      var d := last as int - '0' as int;
      assert n == ParseDigits(front) * 10 + d;
      assert n / 10 == ParseDigits(front) && n % 10 == d;
      assert s == front + [DigitChar(d)];
    }
  }
}
